=== FILE: README.md ===
# Fish shop bot — conversation engine and backend client, in Dafny

A model of the two pieces of sequential logic in a Telegram storefront bot
that sells fish through the Moltin commerce backend:

* **The conversation engine** (`bot_tg.py`). Each chat has one stored state
  name in Redis. `handle_users_reply` resolves the state of a turn:
  the reserved replies `/start`, `/back`, `/cart` and `/pay` override the
  stored state, and any other reply uses it. It then runs the handler
  registered for that state in a closed five-entry table and stores the
  state the handler returns. The handlers (`start`, `handle_menu`,
  `handle_description`, `handle_cart`, `handle_email`) pass data to each
  other through button payloads: `{product}>{qty}`, `delete>{product}` and
  `/create_customer>{email}`. The handler that builds a payload and the one
  that takes it apart with `split('>')` are tied together here by round-trip
  lemmas. The edge cases are proved too: an id or e-mail holding `>`, and
  substring rather than prefix matching on `delete` and `/create_customer`.
* **The backend client** (`moltin_api.py`). This covers the access-token cache,
  the URLs and JSON bodies of the requests, and the backend operations the
  bot calls. `bot_tg.py` imports those operations from `shop_utils`, which
  has the same names and signatures and is not part of this model; they are
  modelled once, as the `Moltin.Call` datatype.

Files:

| file | contents |
|---|---|
| `wrappers.dfy` | `Option` and `Result` |
| `text.dfy` | Python's `str.split`, `str.join`, `in`, `int()` and `str()` on strings, with their round trips |
| `moltin.dfy` | token cache, URL and body builders, backend operations as HTTP requests |
| `bot.dfy` | states, events, `Resolve`, the five handlers, `HandleUsersReply` |
| `bot_properties.dfy` | lemmas about the engine |

How the model represents the program:

* The Redis store is a `map<ChatId, string>` from chat id to the stored
  *name*, not to a `State`. A name outside the dispatch table can then be
  stored, so the `KeyError` of the table lookup stays reachable.
  `StoreStaysWellFormed` shows that turns only ever store table names.
* The store is written only when a turn completes. Every exception is an
  `Err` and leaves the store as it was: no stored state, an unknown state,
  a handler reading the callback payload of a text message, a missing
  `>`-field, a non-integer quantity, or a failing backend call.
* What the backend answers is a parameter, `Env`. It holds the catalog
  (product ids and their main image ids), the item ids a cart read returns,
  and the set of operations that fail. A product lookup by an id the catalog
  lacks also fails, because the backend answers 404. A turn's backend calls
  are issued in order, and the first failing one aborts the turn. The calls
  before it have already taken effect: a failing product read after an
  add-to-cart leaves the product in the cart and the state unchanged.
* A product's main image is optional. A product without one raises when the
  menu reads its image id. An empty id (of a product or of an image) makes
  the backend operation list the whole collection, because an empty id is
  falsy. That listing cannot be read as one item, so the turn raises.
* A keyboard is the grid of its buttons' callback payloads. Labels, texts,
  photos and message deletion are not modelled.
* The token request's form body is represented as the same ordered list of
  named fields as the JSON bodies; its form encoding is not modelled.
* "Now" is a parameter of `GetToken`. The token endpoint's answer is one too,
  and it is used only on a cache miss.

Four behaviours of the code worth knowing:

* A chat with no stored state that sends anything other than a reserved
  reply is an error. `db.get` returns `None`, and `.decode` on it raises.
  The chat is not treated as a fresh session; the code relies on Telegram
  making a new user send `/start` first (bot_tg.py:232-235). (`FirstContactWithoutStart`)
* `/cart` typed as text, rather than pressed, resolves to the cart handler.
  That handler reads `callback_query.data` and raises. (`TypedCartRaises`)
* `/pay` typed as text reaches the e-mail handler. The handler offers
  `/pay` itself as the e-mail to confirm. (`TypedPayIsAnEmail`)
* The customer's name is taken from `query.message.from_user`
  (bot_tg.py:202). That is the sender of the message carrying the button,
  which is the bot itself, not the user who pressed it. The model passes it
  through as the `author` of a `Pressed` input. (`EmailConfirmation`)

## Model

| member | source | states |
|---|---|---|
| Text.Split | bot_tg.py:99 | `split('>')` yields at least one field, and no field contains the separator |
| Text.JoinSplit | bot_tg.py:99 | joining the fields of a split with the separator gives the original string back |
| Text.SplitJoin | bot_tg.py:99-101 | splitting a join of separator-free fields gives the same fields back; this is the base of every payload round trip |
| Text.SplitSingleField | bot_tg.py:99-101 | a split has a single field exactly when the separator does not occur |
| Text.SplitFirstTwoFields | bot_tg.py:99-101 | when a split has two or more fields, the string starts with the first field, the separator, then the second field, followed by the end or another separator, and neither field holds the separator |
| Text.ContainsAt | bot_tg.py:130 | the recursive substring test holds exactly when the needle occurs at some position of the string (both directions) |
| Text.ParseIntToString | bot_tg.py:101 | `int(str(q)) == q` for every integer, negative ones included |
| Moltin.GetToken | moltin_api.py:138-164 | the returned token is always the cached one; no fetch leaves the cache unchanged; a fetch installs exactly the answer's token and expiry; a fetch or error happens exactly when now is past the expiry |
| Moltin.CacheHit | moltin_api.py:146-148 | up to and including the expiry second the cached token is returned, the cache is unchanged, and the endpoint's answer plays no part |
| Moltin.CacheMiss | moltin_api.py:150-164 | after the expiry the cache becomes the answer's token and expiry, and that token is returned |
| Moltin.ColdStartFetches | moltin_api.py:12-13 | from the initial cache (no token, expiry 0) the first call at any positive time asks the endpoint |
| Moltin.RefreshedTokenIsReused | moltin_api.py:146-164 | a token just fetched is served from the cache, without a fetch, by every later call up to its expiry |
| Moltin.EmptyIdIsNoId | moltin_api.py:228-230 | an empty id builds the same URL as no id, since both are falsy |
| Moltin.CollectionUrlDeterminesId | moltin_api.py:175-177 | two optional ids build the same collection URL exactly when they contribute the same id segment |
| Moltin.CartUrlItemsSuffix | moltin_api.py:209-211 | a cart URL ends in `/items` if and only if the items were asked for |
| Moltin.CartItemUrlExtendsItemsUrl | moltin_api.py:245 | the remove URL is the cart-items URL followed by `/` and the product id |
| Moltin.CartItemBodyRoundTrip | moltin_api.py:29-36 | reading the cart-item body back as a `cart_item` gives the product id and quantity unchanged |
| Moltin.CustomerBodyRoundTrip | moltin_api.py:98-105 | reading the customer body back as a `customer` gives the name and e-mail unchanged, whatever their text |
| Moltin.RequestFor | moltin_api.py:167-250 | reads are GETs and nothing else is; a body is sent exactly with a POST; every request carries `Bearer` followed by the token, which prints as `None` when absent |
| Moltin.WritesCarryArguments | moltin_api.py:25-250 | add-to-cart posts to the cart-items URL with a body carrying its id and quantity; remove deletes the item URL; create-customer posts a body carrying name and e-mail |
| Moltin.TokenRequest | moltin_api.py:150-158 | the token request is a POST to `{base}/oauth/access_token` that carries no `Authorization` header and has a body |
| Moltin.TokenRequestRoundTrip | moltin_api.py:150-158 | the token endpoint reads the client-credentials grant and exactly the configured client id and secret from the request |
| Moltin.OnlyTokenRequestIsUnauthorised | moltin_api.py:150-250 | no backend operation's request coincides with the token request, since each carries the bearer header |
| Bot.Lookup | bot_tg.py:256-263 | a name the table maps to a state is that state's stored name |
| Bot.Resolve | bot_tg.py:247-254 | a reserved reply resolves to a registered state; any other reply resolves exactly when something is stored, and then to the stored name |
| Bot.Route | bot_tg.py:232-263 | a reply routes to the state the table gives for the name the reserved reply or the store resolves to, whenever the table has it; its errors are only the missing stored state (exactly when the reply is not reserved and nothing is stored) and the unknown state |
| Bot.FindProduct | moltin_api.py:219-234 | a product found by id is in the catalog under that id; when none is found, no catalog product has that id (the backend answers 404) |
| Bot.FirstFailure | bot_tg.py:265-266 | the failure reported is the first of the turn's calls that fails: it fails and every call before it succeeds; none is reported exactly when every call succeeds |
| Bot.FailureIndex | bot_tg.py:104-111 | the position of the first failing call: every call before it succeeds, the call at it fails, and it is the length of the list exactly when none fails |
| Bot.Issued | bot_tg.py:104-111 | the calls sent are a prefix of the turn's calls; all but the last succeed; on a failure the last sent is the first failing call; without a failure all are sent |
| Bot.CatalogKeyboard | bot_tg.py:32-40 | one button per catalog product with the product id as payload, then one `/cart` row |
| Bot.CartKeyboard | bot_tg.py:151-168 | one `delete>{id}` button per cart item, then one row holding `/back` and `/pay` |
| Bot.ParseQuantityPayload | bot_tg.py:99-101 | the payload lacks a second field exactly when it holds no `>`; its only errors are that missing field and a bad quantity, and a bad quantity is a second field that is not an integer, so a payload whose second field reads as an integer parses; a parsed pair is the payload's first field and that integer |
| Bot.ParseTaggedPayload | bot_tg.py:130-131 | how both `handle_cart` (tag `delete`) and, at bot_tg.py:201-203, `handle_email` (tag `/create_customer`) read a press: nothing exactly when the tag does not occur anywhere in the payload; a missing-field error exactly when it occurs but `>` does not; otherwise the payload's second `>`-field, after its first split field |
| Bot.StartHandler | bot_tg.py:27-53 | `start` makes exactly the catalog read and moves to HANDLE_MENU with one button per catalog product, payload the product id, then a `/cart` row (pinned to the full turn by `ResetLandsInMenu` and `StartReadFails`) |
| Bot.MenuHandler | bot_tg.py:56-92 | a text message raises with no call; a press reads that product first, and at most one more call follows; the turn completes exactly when the id is non-empty, the product exists and has a non-empty image id, and then the calls are the product read and its image read and the page shows that product's quantities (see also `ProductPressTurn`, `MenuWithoutImage`, `MenuWithEmptyImage`) |
| Bot.DescriptionHandler | bot_tg.py:95-121 | no call exactly when the input is text or its payload does not parse; otherwise one add-to-cart to the chat's cart of exactly the parsed id and quantity, then the read of that product, completing exactly when the id is non-empty (see also `QuantityTurn`, `QuantityTurnReadFails`, `QuantityTurnEmptyId`) |
| Bot.CartHandler | bot_tg.py:124-175 | a text message raises with no call; a delete press without `>` raises the missing field before any call; it raises exactly when it makes no call; the only writing call is the removal, from the chat's cart, of the id the delete payload names; a completed turn ends with the two cart reads and shows the cart keyboard (see also `CartDeleteButtons`, `CartWithoutDelete`, `DeleteMatchedAnywhere`) |
| Bot.EmailHandler | bot_tg.py:178-217 | a text message offers that text for confirmation with no call; at most one call, creating a customer named after the message author with the e-mail the confirm payload carries, made exactly when the payload names one; it raises only on a malformed confirm payload, with no call (see also `EmailConfirmation`, `OtherEmailPresses`) |
| Bot.Dispatch | bot_tg.py:256-265 | every handler returns its fixed next state (start to HANDLE_MENU, menu to HANDLE_DESCRIPTION, the other three to themselves); `start` and a typed e-mail raise no error of their own, only through their backend calls, and a typed e-mail makes no call; menu, description and cart raise on a text message before any call |
| Bot.Conclude | bot_tg.py:265-266 | the calls sent are the handler's calls up to the first failure; a failure or an error leaves the store as it was; a completed turn stores the handler's next state, after every call succeeded; a backend failure is the last call sent |
| Bot.HandleUsersReply | bot_tg.py:237-266 | an event with neither input writes nothing and calls nothing; an error writes nothing; a handled turn stores exactly the handler's next state for its chat and every call it sent succeeded; a backend failure is the last call sent, after calls that succeeded; no other chat's entry changes |
| BotProperties.DeliveredTurn | bot_tg.py:256-266 | a reply that routes to a state runs that state's handler and concludes with its plan |
| BotProperties.CompletedTurn | bot_tg.py:256-266 | a handler that completes with every call answered sends all its calls and stores the state it returns |
| BotProperties.ConcludeAtFailure | bot_tg.py:265-266 | when the k-th call of a plan is the first to fail, exactly the calls up to it are sent, that failure is raised, and the store is kept |
| BotProperties.DescriptionTurn | bot_tg.py:95-121 | a non-reserved reply in HANDLE_DESCRIPTION whose handler completes with every call answered sends all those calls and keeps HANDLE_DESCRIPTION stored |
| BotProperties.StoreStaysWellFormed | bot_tg.py:265-266 | if every stored name has a handler before a turn, the same holds after it |
| BotProperties.LookupName | bot_tg.py:256-262 | each of the five states is registered under its own name |
| BotProperties.WellFormedNeverUnknown | bot_tg.py:254-263 | in a store where every name has a handler, a chat with a stored state never hits the unknown-state error |
| BotProperties.ResetLandsInMenu | bot_tg.py:247-248 | `/start` or `/back`, typed or pressed, runs `start` whatever is stored; when the catalog read succeeds it reads the catalog once, shows the catalog keyboard and leaves HANDLE_MENU stored |
| BotProperties.StartReadFails | bot_tg.py:27-33 | when the catalog read fails, `start` raises that failure after that one call and nothing is written |
| BotProperties.ShortcutTargets | bot_tg.py:249-252 | `/cart` resolves to HANDLE_CART and `/pay` to WAITING_EMAIL whatever is stored |
| BotProperties.ShortcutIgnoresStore | bot_tg.py:247-254 | for a reserved reply, the turn's result and its calls are the same for any two stores |
| BotProperties.OtherRepliesUseStore | bot_tg.py:253-254 | any other reply is an error with no write when nothing is stored, and otherwise runs in the stored state |
| BotProperties.UnknownStateIsError | bot_tg.py:256-263 | a stored name outside the table raises the unknown-state error and nothing is written |
| BotProperties.FirstContact | bot_tg.py:247-254 | a chat with no stored state reaches HANDLE_MENU through `/start` when the catalog read succeeds |
| BotProperties.FirstContactWithoutStart | bot_tg.py:247-254 | a chat with no stored state that sends any non-reserved reply raises with no call and no write, whatever the backend does |
| BotProperties.TypedCartRaises | bot_tg.py:124-130 | typing `/cart` raises in the cart handler, and the store is untouched |
| BotProperties.TypedPayIsAnEmail | bot_tg.py:181-196 | typing `/pay` offers `/create_customer>/pay` for confirmation and stores WAITING_EMAIL |
| BotProperties.BackendFailureKeepsStore | bot_tg.py:265-266 | when the k-th of a turn's backend calls is the first to fail, exactly the calls up to it are sent, the turn raises that failure, and the store is unchanged |
| BotProperties.QuantityPayloadRoundTrip | bot_tg.py:99-101 | `{id}>{qty}` parses back to the same id and integer quantity whenever the id holds no `>` |
| BotProperties.QuantityPayloadIdWithSep | bot_tg.py:99-101 | the id `a>b` with quantity 5 does not survive: `b` is read as the quantity and raises |
| BotProperties.MenuQuantitiesRoundTrip | bot_tg.py:72-81 | for a product id holding no `>` whose page completes, the product page offers three quantity buttons, then `/back`, then `/cart`; pressing the k-th adds quantity 1, 5 or 10 of that product, as the first call |
| BotProperties.QuantityPress | bot_tg.py:98-111 | for a product id holding no `>`, a quantity button adds exactly that quantity of that product to the chat's cart, reads the product, and completes exactly when the id is non-empty |
| BotProperties.QuantityTurn | bot_tg.py:98-111 | for a non-empty product id holding no `>`, when the add-to-cart and the product read both succeed, a quantity payload in HANDLE_DESCRIPTION makes exactly one add-to-cart with (chat, id, qty), followed by the product read, and HANDLE_DESCRIPTION stays stored |
| BotProperties.QuantityTurnReadFails | bot_tg.py:104-111 | when the product read fails, the add-to-cart has already been sent and succeeded, the turn raises the read's failure and the store is unchanged |
| BotProperties.QuantityTurnEmptyId | bot_tg.py:99-111 | the payload `>{qty}` adds to the cart under the empty id, then reads the whole product listing and raises |
| BotProperties.TaggedFieldAnywhere | bot_tg.py:130-131 | for a tag and a value holding no `>`, with `>`-free text before the tag (none, say), `{before}{tag}>{value}` reads back as exactly that value; the delete and confirm round trips are its instances |
| BotProperties.DeletePayloadRoundTrip | bot_tg.py:130-131 | `delete>{id}` names the same id back whenever the id holds no `>` |
| BotProperties.CartDeleteButtons | bot_tg.py:130-168 | for a cart item holding no `>`, its delete button removes that item before the two cart reads, and the keyboard ends with `/back` and `/pay` |
| BotProperties.CartWithoutDelete | bot_tg.py:130-135 | a payload without `delete` anywhere removes nothing; the cart and its items are read |
| BotProperties.DeleteMatchedAnywhere | bot_tg.py:130-132 | `delete` is matched anywhere in the payload: any `>`-free text before `delete>{id}` (`undelete>x`, say) still removes that id, before the two cart reads |
| BotProperties.DeleteWithoutField | bot_tg.py:130-131 | a payload `delete` with no second field raises before any backend call |
| BotProperties.ConfirmPayloadRoundTrip | bot_tg.py:201-204 | `/create_customer>{text}` gives the text back whenever it holds no `>` |
| BotProperties.EmailConfirmation | bot_tg.py:181-204 | for a typed text holding no `>`, the text is offered as confirm and wrong-e-mail buttons; pressing confirm creates one customer with the message author's name and exactly that text |
| BotProperties.EmailNotValidated | bot_tg.py:201-204 | a text without `@` is registered as the e-mail all the same |
| BotProperties.EmailCutAtSep | bot_tg.py:203 | a text holding `>` is registered cut at its first `>` |
| BotProperties.ConfirmFieldCutAtSep | bot_tg.py:201-203 | the confirm payload of a text holding `>` carries only the part before its first `>` |
| BotProperties.OtherEmailPresses | bot_tg.py:197-217 | any press without `/create_customer` creates no customer, shows no buttons and keeps WAITING_EMAIL |
| BotProperties.WrongEmailPress | bot_tg.py:211-214 | `/wrong_email` is such a press |
| BotProperties.ConfirmMatchedAnywhere | bot_tg.py:201-204 | `/create_customer` is matched anywhere in the payload: any `>`-free text before `/create_customer>{email}` (`x/create_customer>y`, say) still creates one customer with that e-mail |
| BotProperties.ProductPressTurn | bot_tg.py:32-92 | pressing the button of any catalog product in HANDLE_MENU, when reads succeed and the products with that id have a non-empty image id, sends exactly the read of that product and then the read of its image file, shows that product's quantity keyboard and stores HANDLE_DESCRIPTION |
| BotProperties.MenuWithoutImage | bot_tg.py:60-68 | a product without a main image raises after the product read, and nothing is written |
| BotProperties.MenuWithEmptyImage | bot_tg.py:68-70 | a product whose image id is empty makes the file read list every file, which raises, and nothing is written |
| BotProperties.CartShortcutTurn | bot_tg.py:124-175 | pressing `/cart` reads the cart and its items and stores HANDLE_CART when those two reads succeed |
| BotProperties.SessionOpening | bot_tg.py:27-92 | `/start` then the i-th catalog product, each turn on the store the previous one left, store HANDLE_MENU then HANDLE_DESCRIPTION for the chat |
| BotProperties.SessionClosing | bot_tg.py:95-175 | from HANDLE_DESCRIPTION, a quantity button keeps the store as it is while sending the add-to-cart and then the product read, and a following `/cart` stores HANDLE_CART |
| BotProperties.Session | bot_tg.py:220-266 | `/start`, the i-th catalog product, a quantity, then `/cart`, each turn on the store the previous one left, store HANDLE_MENU, HANDLE_DESCRIPTION, HANDLE_DESCRIPTION, HANDLE_CART; the third turn sends the add-to-cart of that quantity of that product and then the product read |

## Left out

- Telegram transport and rendering (updater, handler registration, keyboards' labels, message texts and photos, message deletion, `query.answer`): user-interface I/O; only payloads and button layout are modelled.
- Redis connection setup and the UTF-8 decoding of stored bytes: the store is an abstract map from chat id to name, and the bot only ever stores ASCII names.
- HTTP transfer, `raise_for_status`, JSON decoding of responses and the `retry(tries=3)` decorator: foreign library behaviour; a failing operation is one in `Env.failing`, and retries are folded into "fails".
- Backend response contents (product names, descriptions, prices, cart totals): owned by the remote service and only echoed into message text.
- `create_a_file` and `create_main_image_relationship`: filesystem work and catalog administration, not used by the bot.
- `load_environment`, `load_dotenv`, logging and the error handler: configuration and I/O.
- Reading the clock: `GetToken` takes `now` as an integer, already truncated the way `int(time.time())` truncates.
- Text.ParseInt: accepts only an optional sign followed by ASCII digits; Python's `int()` also strips surrounding whitespace and accepts `_` between digits and non-ASCII digits. Payloads the bot builds itself are plain digits, so the round trips are unaffected.
- Moltin.GetToken: the endpoint's answer is taken as a well-formed pair; an answer missing `access_token` would update the expiry before raising, and that is not modelled.
- Telegram's 64-byte limit on callback data: a longer payload (a long e-mail, say) is rejected by the transport; the model does not bound payload length.

=== FILE: bot.dfy ===
/**
 The conversation engine of the storefront bot: the five conversation states,
 how the state of a turn is resolved from the user's reply and the session
 store, what each state's handler does with the reply (which backend
 operations it issues, which button payloads it offers, which state comes
 next), and how the outcome is written back to the store.

 Rendering (texts, photos, button labels, message deletion) is left out; a
 keyboard is the grid of callback payloads of its buttons.
 */
module Bot {
  import opened Wrappers
  import opened Text
  import opened Moltin

  type ChatId = int

  /** The session store: chat id to the stored state name. */
  type Store = map<ChatId, string>

  datatype State = Start | Menu | Description | Cart | WaitingEmail

  /** The name a state is stored under. */
  function Name(s: State): string {
    match s
    case Start => "START"
    case Menu => "HANDLE_MENU"
    case Description => "HANDLE_DESCRIPTION"
    case Cart => "HANDLE_CART"
    case WaitingEmail => "WAITING_EMAIL"
  }

  /** The dispatch table: the state whose handler is registered under `name`, if any. */
  function Lookup(name: string): (r: Option<State>)
    ensures r.Some? ==> Name(r.value) == name
  {
    if name == "START" then Some(Start)
    else if name == "HANDLE_MENU" then Some(Menu)
    else if name == "HANDLE_DESCRIPTION" then Some(Description)
    else if name == "HANDLE_CART" then Some(Cart)
    else if name == "WAITING_EMAIL" then Some(WaitingEmail)
    else None
  }

  /** What the user did: typed a text message, or pressed a button carrying a payload. */
  datatype Input =
    | Typed(text: string)
      /** `author` is the username on the message the pressed button belongs to. */
    | Pressed(data: string, author: string)

  /** An update from the chat transport: an input in some chat, or neither kind of input. */
  datatype Event = Delivered(chat: ChatId, input: Input) | Neither

  /** The text the engine matches against the reserved tokens. */
  function UserReply(input: Input): string {
    match input
    case Typed(t) => t
    case Pressed(d, _) => d
  }

  /** What a turn can raise; every error leaves the store as it was. */
  datatype Error =
    | NoStoredState               // the store has no entry, so decoding it fails
    | UnknownState(name: string)  // the stored name has no handler
    | NotAButtonPress             // a handler reads the callback payload of a text message
    | MissingField(payload: string) // a payload without a second `>`-field
    | BadQuantity(field: string)  // the quantity field is not an integer
    | BackendFailure(call: Call)  // a backend operation failed
    | NoMainImage(productId: string) // the product has no main image relationship
    | ListingNotItem(call: Call)  // an empty id made a lookup return the whole listing

  /** The reserved tokens that override the stored state. */
  predicate IsShortcut(reply: string) {
    reply == "/start" || reply == "/back" || reply == "/cart" || reply == "/pay"
  }

  /** The state name a turn runs in, given the reply and what the store holds for the chat. */
  function Resolve(reply: string, stored: Option<string>): (r: Result<string, Error>)
    ensures IsShortcut(reply) ==> r.Ok? && Lookup(r.value).Some?
    ensures !IsShortcut(reply) ==> (r.Ok? <==> stored.Some?)
    ensures !IsShortcut(reply) && r.Ok? ==> r.value == stored.value
  {
    if reply == "/start" || reply == "/back" then Ok("START")
    else if reply == "/cart" then Ok("HANDLE_CART")
    else if reply == "/pay" then Ok("WAITING_EMAIL")
    else match stored
      case None => Err(NoStoredState)
      case Some(name) => Ok(name)
  }

  // ---------------------------------------------------------------------
  // What the backend answers

  /** A catalog entry: its id and the id of its main image file, when it has one. */
  datatype Product = Product(id: string, image: Option<string>)

  /**
   The backend as the turn finds it: the catalog, the ids of the items the
   cart read returns, and the operations that fail.
   */
  datatype Env = Env(catalog: seq<Product>, cartItems: seq<string>, failing: set<Call>)

  /** The first catalog entry with the given id. */
  function FindProduct(catalog: seq<Product>, id: string): (r: Option<Product>)
    ensures r.Some? ==> r.value in catalog && r.value.id == id
    ensures r.None? ==> forall p :: p in catalog ==> p.id != id
    decreases |catalog|
  {
    if |catalog| == 0 then None
    else if catalog[0].id == id then Some(catalog[0])
    else FindProduct(catalog[1..], id)
  }

  /**
   A backend operation fails when it is among the failing ones, or when it
   looks up a product by a (non-empty) id the catalog lacks.
   */
  predicate Fails(env: Env, call: Call) {
    || call in env.failing
    || (call.GetProducts? && Truthy(call.wanted) && FindProduct(env.catalog, call.wanted.value).None?)
  }

  /** The position of the first of `calls` that fails, or `|calls|` when none does. */
  function FailureIndex(calls: seq<Call>, env: Env): (k: nat)
    ensures k <= |calls|
    ensures forall j :: 0 <= j < k ==> !Fails(env, calls[j])
    ensures k < |calls| ==> Fails(env, calls[k])
    decreases |calls|
  {
    if |calls| == 0 || Fails(env, calls[0]) then 0
    else 1 + FailureIndex(calls[1..], env)
  }

  /** The first of `calls` that fails; the operations after it are never issued. */
  function FirstFailure(calls: seq<Call>, env: Env): (r: Option<Call>)
    ensures r.Some? ==> exists i :: 0 <= i < |calls| && calls[i] == r.value && Fails(env, calls[i])
                                     && forall j :: 0 <= j < i ==> !Fails(env, calls[j])
    ensures r.None? <==> forall c :: c in calls ==> !Fails(env, c)
  {
    var k := FailureIndex(calls, env);
    if k < |calls| then Some(calls[k]) else None
  }

  /** The calls actually sent: all of them, or those up to and including the first that fails. */
  function Issued(calls: seq<Call>, env: Env): (sent: seq<Call>)
    ensures sent <= calls
    ensures forall j :: 0 <= j < |sent| - 1 ==> !Fails(env, sent[j])
    ensures FirstFailure(calls, env).Some? ==> |sent| >= 1 && sent[|sent| - 1] == FirstFailure(calls, env).value
    ensures FirstFailure(calls, env).None? ==> sent == calls
  {
    var k := FailureIndex(calls, env);
    if k < |calls| then calls[..k + 1] else calls
  }

  // ---------------------------------------------------------------------
  // Button payloads

  /** The grid of callback payloads of a reply's buttons. */
  type Keyboard = seq<seq<string>>

  /** The quantities a product page offers, one button each. */
  const OfferedQuantities: seq<int> := [1, 5, 10]

  function QuantityPayload(productId: string, quantity: int): string {
    productId + ">" + IntToString(quantity)
  }

  /**
   The product id and quantity of a quantity payload, read as `split('>')`
   fields 0 and 1: the text before the first `>`, and the integer the next
   field spells.
   */
  function ParseQuantityPayload(payload: string): (r: Result<(string, int), Error>)
    ensures r == Err(MissingField(payload)) <==> '>' !in payload
    ensures r.Err? ==> r.error == MissingField(payload) || r.error.BadQuantity?
    ensures r.Ok? ==> exists digits :: FirstTwoFields(payload, '>', r.value.0, digits) && ParseInt(digits) == Some(r.value.1)
    ensures r.Err? && r.error.BadQuantity? ==>
              exists id :: FirstTwoFields(payload, '>', id, r.error.field) && ParseInt(r.error.field).None?
  {
    var fields := Split(payload, '>');
    SplitSingleField(payload, '>');
    if |fields| < 2 then Err(MissingField(payload))
    else
      SplitFirstTwoFields(payload, '>');
      match ParseInt(fields[1])
      case None => Err(BadQuantity(fields[1]))
      case Some(q) => Ok((fields[0], q))
  }

  function DeletePayload(productId: string): string {
    "delete>" + productId
  }

  /**
   The second field of a tagged payload: nothing unless `tag` occurs anywhere
   in the payload, and then `split('>')[1]`, which raises when there is no `>`.
   */
  function ParseTaggedPayload(payload: string, tag: string): (r: Result<Option<string>, Error>)
    ensures r == Ok(None) <==> !Contains(payload, tag)
    ensures r.Err? <==> Contains(payload, tag) && '>' !in payload
    ensures r.Err? ==> r.error == MissingField(payload)
    ensures r.Ok? && r.value.Some? ==> FirstTwoFields(payload, '>', Split(payload, '>')[0], r.value.value)
  {
    if !Contains(payload, tag) then Ok(None)
    else
      var fields := Split(payload, '>');
      SplitSingleField(payload, '>');
      if |fields| < 2 then Err(MissingField(payload))
      else
        SplitFirstTwoFields(payload, '>');
        Ok(Some(fields[1]))
  }

  /** The product a cart press removes, if any. */
  function ParseDeletePayload(payload: string): Result<Option<string>, Error> {
    ParseTaggedPayload(payload, "delete")
  }

  function ConfirmPayload(email: string): string {
    "/create_customer>" + email
  }

  const WrongEmailPayload: string := "/wrong_email"

  /** The e-mail a press in WAITING_EMAIL registers, if any. */
  function ParseConfirmPayload(payload: string): Result<Option<string>, Error> {
    ParseTaggedPayload(payload, "/create_customer")
  }

  // ---------------------------------------------------------------------
  // Handlers

  /** How a completed turn ends: the state the handler returns and the keyboard it shows. */
  datatype Turn = Turn(next: State, keyboard: Keyboard)

  /**
   What a handler does: the backend operations it issues, in order, and how
   it ends once they have all answered, with a turn or with the error it
   raises. An error raised before any operation comes with no operations.
   */
  datatype Plan = Plan(calls: seq<Call>, ending: Result<Turn, Error>)

  /** The state each handler returns, independent of the input. */
  function NextState(s: State): State {
    match s
    case Start => Menu
    case Menu => Description
    case Description => Description
    case Cart => Cart
    case WaitingEmail => WaitingEmail
  }

  /** One row per catalog product, its payload the product id, then the cart shortcut. */
  function CatalogKeyboard(catalog: seq<Product>): (kb: Keyboard)
    ensures |kb| == |catalog| + 1 && kb[|catalog|] == ["/cart"]
    ensures forall i :: 0 <= i < |catalog| ==> kb[i] == [catalog[i].id]
  {
    seq(|catalog|, i requires 0 <= i < |catalog| => [catalog[i].id]) + [["/cart"]]
  }

  /** One delete button per cart item, then a row with the back and pay shortcuts. */
  function CartKeyboard(items: seq<string>): (kb: Keyboard)
    ensures |kb| == |items| + 1 && kb[|items|] == ["/back", "/pay"]
    ensures forall i :: 0 <= i < |items| ==> kb[i] == [DeletePayload(items[i])]
  {
    seq(|items|, i requires 0 <= i < |items| => [DeletePayload(items[i])]) + [["/back", "/pay"]]
  }

  /** The keyboard of a product page: the quantity choices, then back, then cart. */
  function ProductKeyboard(productId: string): Keyboard {
    var quantities := seq(|OfferedQuantities|, k requires 0 <= k < |OfferedQuantities| =>
                            QuantityPayload(productId, OfferedQuantities[k]));
    [quantities, ["/back"], ["/cart"]]
  }

  /** `start`: list the catalog. */
  function StartHandler(env: Env): (r: Plan)
    ensures r.calls == [GetProducts(None)]
    ensures r.ending.Ok? && r.ending.value.next == Menu
    ensures var kb := r.ending.value.keyboard;
            && |kb| == |env.catalog| + 1 && kb[|env.catalog|] == ["/cart"]
            && forall i :: 0 <= i < |env.catalog| ==> kb[i] == [env.catalog[i].id]
  {
    Plan([GetProducts(None)], Ok(Turn(Menu, CatalogKeyboard(env.catalog))))
  }

  /**
   `handle_menu`: read the pressed product, then its main image file, and show
   the quantity choices. An empty id reads the whole product listing, and an
   empty image id the whole file listing; neither can be read as one item.
   */
  function MenuHandler(input: Input, env: Env): (r: Plan)
    ensures input.Typed? ==> r == Plan([], Err(NotAButtonPress))
    ensures input.Pressed? ==> 1 <= |r.calls| <= 2 && r.calls[0] == GetProducts(Some(input.data))
    ensures r.ending.Ok? <==>
              && input.Pressed? && input.data != ""
              && FindProduct(env.catalog, input.data).Some?
              && FindProduct(env.catalog, input.data).value.image.Some?
              && FindProduct(env.catalog, input.data).value.image.value != ""
    ensures r.ending.Ok? ==>
              && r.calls == [GetProducts(Some(input.data)), GetFiles(FindProduct(env.catalog, input.data).value.image)]
              && r.ending.value == Turn(Description, ProductKeyboard(input.data))
  {
    match input
    case Typed(_) => Plan([], Err(NotAButtonPress))
    case Pressed(id, _) =>
      var read := GetProducts(Some(id));
      if id == "" then Plan([read], Err(ListingNotItem(read)))
      else match FindProduct(env.catalog, id)
        case None => Plan([read], Err(BackendFailure(read)))
        case Some(p) =>
          match p.image
          case None => Plan([read], Err(NoMainImage(id)))
          case Some(imageId) =>
            var file := GetFiles(Some(imageId));
            if imageId == "" then Plan([read, file], Err(ListingNotItem(file)))
            else Plan([read, file], Ok(Turn(Description, ProductKeyboard(id))))
  }

  /** `handle_description`: put the chosen quantity of the chosen product in the chat's cart, then read the product. */
  function DescriptionHandler(chat: ChatId, input: Input): (r: Plan)
    ensures input.Typed? ==> r == Plan([], Err(NotAButtonPress))
    ensures r.calls == [] <==> input.Typed? || ParseQuantityPayload(input.data).Err?
    ensures r.calls == [] ==> r.ending.Err?
    ensures r.calls != [] ==>
              && input.Pressed? && |r.calls| == 2
              && r.calls[0].AddProductToCart? && r.calls[0].cartId == chat
              && ParseQuantityPayload(input.data) == Ok((r.calls[0].productId, r.calls[0].quantity))
              && r.calls[1] == GetProducts(Some(r.calls[0].productId))
              && (r.ending.Ok? <==> r.calls[0].productId != "")
    ensures r.ending.Ok? ==> r.ending.value == Turn(Description, [["/back"], ["/cart"]])
  {
    match input
    case Typed(_) => Plan([], Err(NotAButtonPress))
    case Pressed(payload, _) =>
      match ParseQuantityPayload(payload)
      case Err(e) => Plan([], Err(e))
      case Ok((id, q)) =>
        var read := GetProducts(Some(id));
        Plan([AddProductToCart(chat, id, q), read],
             if id == "" then Err(ListingNotItem(read)) else Ok(Turn(Description, [["/back"], ["/cart"]])))
  }

  /** `handle_cart`: remove the item a delete payload names, then read the cart and its items. */
  function CartHandler(chat: ChatId, input: Input, env: Env): (r: Plan)
    ensures input.Typed? ==> r == Plan([], Err(NotAButtonPress))
    ensures r.ending.Err? <==> r.calls == []
    ensures r.ending.Ok? ==>
              && r.ending.value == Turn(Cart, CartKeyboard(env.cartItems))
              && |r.calls| >= 2
              && r.calls[|r.calls| - 2..] == [GetCartStatus(chat, false), GetCartStatus(chat, true)]
    ensures forall c :: c in r.calls && !IsRead(c) ==>
              && input.Pressed? && c.RemoveItemFromCart? && c.cartId == chat
              && ParseDeletePayload(input.data) == Ok(Some(c.productId))
    ensures input.Pressed? && ParseDeletePayload(input.data).Ok? && ParseDeletePayload(input.data).value.Some? ==>
              |r.calls| == 3 && r.calls[0] == RemoveItemFromCart(chat, ParseDeletePayload(input.data).value.value)
    ensures input.Pressed? && ParseDeletePayload(input.data).Err? ==> r == Plan([], Err(MissingField(input.data)))
  {
    match input
    case Typed(_) => Plan([], Err(NotAButtonPress))
    case Pressed(payload, _) =>
      match ParseDeletePayload(payload)
      case Err(e) => Plan([], Err(e))
      case Ok(None) =>
        Plan([GetCartStatus(chat, false), GetCartStatus(chat, true)], Ok(Turn(Cart, CartKeyboard(env.cartItems))))
      case Ok(Some(id)) =>
        Plan([RemoveItemFromCart(chat, id), GetCartStatus(chat, false), GetCartStatus(chat, true)],
             Ok(Turn(Cart, CartKeyboard(env.cartItems))))
  }

  /** `handle_email`: ask to confirm a typed e-mail, or register the confirmed one. */
  function EmailHandler(input: Input): (r: Plan)
    ensures input.Typed? ==> r == Plan([], Ok(Turn(WaitingEmail, [[ConfirmPayload(input.text), WrongEmailPayload]])))
    ensures r.ending.Ok? ==> r.ending.value.next == WaitingEmail
    ensures r.ending.Err? ==> r.calls == [] && input.Pressed? && ParseConfirmPayload(input.data).Err?
    ensures |r.calls| <= 1
    ensures forall c :: c in r.calls ==>
              && input.Pressed? && c.CreateCustomer? && c.name == input.author
              && ParseConfirmPayload(input.data) == Ok(Some(c.email))
    ensures input.Pressed? && ParseConfirmPayload(input.data).Ok? ==>
              (|r.calls| == 1 <==> ParseConfirmPayload(input.data).value.Some?)
  {
    match input
    case Typed(text) => Plan([], Ok(Turn(WaitingEmail, [[ConfirmPayload(text), WrongEmailPayload]])))
    case Pressed(payload, author) =>
      match ParseConfirmPayload(payload)
      case Err(e) => Plan([], Err(e))
      case Ok(None) => Plan([], Ok(Turn(WaitingEmail, [])))
      case Ok(Some(email)) => Plan([CreateCustomer(author, email)], Ok(Turn(WaitingEmail, [])))
  }

  /** Run the handler registered for `s`. */
  function Dispatch(s: State, chat: ChatId, input: Input, env: Env): (r: Plan)
    ensures r.ending.Ok? ==> r.ending.value.next == NextState(s)
    ensures s == Start ==> r.ending.Ok?
    ensures s == WaitingEmail && input.Typed? ==> r.ending.Ok? && r.calls == []
    ensures input.Typed? && s in {Menu, Description, Cart} ==> r == Plan([], Err(NotAButtonPress))
    ensures r.ending.Err? && r.ending.error.BackendFailure? ==> r.ending.error.call in r.calls && Fails(env, r.ending.error.call)
  {
    match s
    case Start => StartHandler(env)
    case Menu => MenuHandler(input, env)
    case Description => DescriptionHandler(chat, input)
    case Cart => CartHandler(chat, input, env)
    case WaitingEmail => EmailHandler(input)
  }

  // ---------------------------------------------------------------------
  // One turn

  /** What a turn did: nothing (no input), or the handler it ran and how that handler ended. */
  datatype Reply = Ignored | Handled(resolved: State, turn: Turn)

  /** The store after the turn, the backend operations sent, and the turn's result or the error it raised. */
  datatype Outcome = Outcome(db: Store, issued: seq<Call>, result: Result<Reply, Error>)

  /**
   The state a reply runs in: the reserved token's or the stored one, looked
   up in the dispatch table. Its errors are the two lookups that raise before
   any handler runs.
   */
  function Route(db: Store, chat: ChatId, input: Input): (r: Result<State, Error>)
    ensures r.Ok? ==> Resolve(UserReply(input), if chat in db then Some(db[chat]) else None) == Ok(Name(r.value))
    ensures r.Err? ==> r.error.NoStoredState? || r.error.UnknownState?
    ensures r.Err? && r.error.NoStoredState? <==> !IsShortcut(UserReply(input)) && chat !in db
    ensures var resolved := Resolve(UserReply(input), if chat in db then Some(db[chat]) else None);
            resolved.Ok? && Lookup(resolved.value).Some? ==> r == Ok(Lookup(resolved.value).value)
  {
    var stored := if chat in db then Some(db[chat]) else None;
    match Resolve(UserReply(input), stored)
    case Err(err) => Err(err)
    case Ok(name) =>
      match Lookup(name)
      case None => Err(UnknownState(name))
      case Some(s) => Ok(s)
  }

  /**
   Send a handler's calls in order and finish the turn: the first failing call
   aborts it, otherwise the handler's ending decides; only a completed turn
   writes the store, and then the state the handler returns.
   */
  function Conclude(db: Store, chat: ChatId, s: State, plan: Plan, env: Env): (o: Outcome)
    requires plan.ending.Ok? ==> plan.ending.value.next == NextState(s)
    requires plan.ending.Err? && plan.ending.error.BackendFailure? ==>
               plan.ending.error.call in plan.calls && Fails(env, plan.ending.error.call)
    ensures o.issued == Issued(plan.calls, env)
    ensures o.result != Ok(Ignored)
    ensures o.result.Err? ==> o.db == db
    ensures o.result.Ok? ==>
              && plan.ending.Ok? && o.result == Ok(Handled(s, plan.ending.value))
              && o.db == db[chat := Name(NextState(s))]
              && forall c :: c in o.issued ==> !Fails(env, c)
    ensures o.result.Err? && o.result.error.BackendFailure? ==>
              && |o.issued| >= 1 && o.issued[|o.issued| - 1] == o.result.error.call
              && Fails(env, o.result.error.call)
              && forall j :: 0 <= j < |o.issued| - 1 ==> !Fails(env, o.issued[j])
  {
    var sent := Issued(plan.calls, env);
    match FirstFailure(plan.calls, env)
    case Some(c) => Outcome(db, sent, Err(BackendFailure(c)))
    case None =>
      match plan.ending
      case Err(err) => Outcome(db, sent, Err(err))
      case Ok(turn) => Outcome(db[chat := Name(turn.next)], sent, Ok(Handled(s, turn)))
  }

  /** `handle_users_reply`: resolve the state, run its handler, store the state it returns. */
  function HandleUsersReply(db: Store, e: Event, env: Env): (o: Outcome)
    ensures e.Neither? ==> o == Outcome(db, [], Ok(Ignored))
    ensures o.result.Err? || o.result == Ok(Ignored) ==> o.db == db
    ensures o.result.Ok? && o.result.value.Handled? ==>
              && e.Delivered?
              && o.result.value.turn.next == NextState(o.result.value.resolved)
              && o.db == db[e.chat := Name(NextState(o.result.value.resolved))]
              && forall c :: c in o.issued ==> !Fails(env, c)
    ensures o.result.Err? && o.result.error.BackendFailure? ==>
              && |o.issued| >= 1 && o.issued[|o.issued| - 1] == o.result.error.call
              && Fails(env, o.result.error.call)
              && forall j :: 0 <= j < |o.issued| - 1 ==> !Fails(env, o.issued[j])
    ensures forall c :: c in db && (e.Neither? || c != e.chat) ==> c in o.db && o.db[c] == db[c]
    ensures e.Delivered? && o.result.Ok? ==> o.result.value.Handled?
  {
    match e
    case Neither => Outcome(db, [], Ok(Ignored))
    case Delivered(chat, input) =>
      match Route(db, chat, input)
      case Err(err) => Outcome(db, [], Err(err))
      case Ok(s) => Conclude(db, chat, s, Dispatch(s, chat, input, env), env)
  }
}

=== FILE: bot_properties.dfy ===
/**
 Properties of the conversation engine: the reserved-token overrides, the
 store write, the payload round trips between the handler that builds a
 payload and the handler that parses it, and the error paths.
 */
module BotProperties {
  import opened Wrappers
  import opened Text
  import opened Moltin
  import opened Bot

  /** Every stored name has a handler. */
  ghost predicate WellFormed(db: Store) {
    forall c :: c in db ==> Lookup(db[c]).Some?
  }

  /** No reading operation fails; writes may. */
  ghost predicate ReadsSucceed(env: Env) {
    forall c :: c in env.failing ==> !IsRead(c)
  }

  /** Every catalog product has a main image with a non-empty id. */
  ghost predicate ImagesPresent(catalog: seq<Product>) {
    forall p :: p in catalog ==> p.image.Some? && p.image.value != ""
  }

  /** Turns only ever store names that have a handler. */
  lemma StoreStaysWellFormed(db: Store, e: Event, env: Env)
    requires WellFormed(db)
    ensures WellFormed(HandleUsersReply(db, e, env).db)
  {
    var o := HandleUsersReply(db, e, env);
    if o.result.Ok? && o.result.value.Handled? {
      var s := NextState(o.result.value.resolved);
      assert Lookup(Name(s)) == Some(s) by { LookupName(s); }
    }
  }

  /** The dispatch table has exactly the five states, each under its own name. */
  lemma LookupName(s: State)
    ensures Lookup(Name(s)) == Some(s)
  {
  }

  /** A delivered reply runs the handler of the state it routes to and concludes with that handler's plan. */
  lemma DeliveredTurn(db: Store, chat: ChatId, input: Input, env: Env, s: State)
    requires Route(db, chat, input) == Ok(s)
    ensures HandleUsersReply(db, Delivered(chat, input), env) == Conclude(db, chat, s, Dispatch(s, chat, input, env), env)
  {
  }

  /** A handler that completes with every call answered sends them all and stores the state it returns. */
  lemma CompletedTurn(db: Store, chat: ChatId, input: Input, env: Env, s: State, plan: Plan)
    requires Route(db, chat, input) == Ok(s)
    requires Dispatch(s, chat, input, env) == plan
    requires plan.ending.Ok? && forall c :: c in plan.calls ==> !Fails(env, c)
    ensures HandleUsersReply(db, Delivered(chat, input), env)
            == Outcome(db[chat := Name(plan.ending.value.next)], plan.calls, Ok(Handled(s, plan.ending.value)))
  {
    DeliveredTurn(db, chat, input, env, s);
  }

  /** In a well-formed store, a chat that has a stored state never hits an unknown one. */
  lemma WellFormedNeverUnknown(db: Store, chat: ChatId, input: Input, env: Env)
    requires WellFormed(db) && chat in db
    ensures !HandleUsersReply(db, Delivered(chat, input), env).result.Err?
            || !HandleUsersReply(db, Delivered(chat, input), env).result.error.UnknownState?
  {
  }

  // ---------------------------------------------------------------------
  // Resolution

  /** `/start` and `/back` run `start` whatever is stored; the chat then stores HANDLE_MENU. */
  lemma ResetLandsInMenu(db: Store, chat: ChatId, input: Input, env: Env)
    requires UserReply(input) == "/start" || UserReply(input) == "/back"
    requires !Fails(env, GetProducts(None))
    ensures var o := HandleUsersReply(db, Delivered(chat, input), env);
            && o.result == Ok(Handled(Start, Turn(Menu, CatalogKeyboard(env.catalog))))
            && o.issued == [GetProducts(None)]
            && o.db == db[chat := "HANDLE_MENU"]
  {
  }

  /** `start` raises nothing of its own, but a failing catalog read aborts it and nothing is written. */
  lemma StartReadFails(db: Store, chat: ChatId, input: Input, env: Env)
    requires UserReply(input) == "/start" || UserReply(input) == "/back"
    requires Fails(env, GetProducts(None))
    ensures HandleUsersReply(db, Delivered(chat, input), env)
            == Outcome(db, [GetProducts(None)], Err(BackendFailure(GetProducts(None))))
  {
  }

  /** `/cart` and `/pay` jump to the cart and to the e-mail prompt. */
  lemma ShortcutTargets(stored: Option<string>)
    ensures Resolve("/cart", stored) == Ok(Name(Cart))
    ensures Resolve("/pay", stored) == Ok(Name(WaitingEmail))
  {
  }

  /** A reserved token gives the same result and the same calls whatever the store holds: the store is not read. */
  lemma ShortcutIgnoresStore(db1: Store, db2: Store, chat: ChatId, input: Input, env: Env)
    requires IsShortcut(UserReply(input))
    ensures HandleUsersReply(db1, Delivered(chat, input), env).result
            == HandleUsersReply(db2, Delivered(chat, input), env).result
    ensures HandleUsersReply(db1, Delivered(chat, input), env).issued
            == HandleUsersReply(db2, Delivered(chat, input), env).issued
  {
  }

  /** Any other reply runs in the stored state, and is an error when nothing is stored. */
  lemma OtherRepliesUseStore(db: Store, chat: ChatId, input: Input, env: Env)
    requires !IsShortcut(UserReply(input))
    ensures var o := HandleUsersReply(db, Delivered(chat, input), env);
            && (chat !in db ==> o == Outcome(db, [], Err(NoStoredState)))
            && (o.result.Ok? ==> chat in db && Lookup(db[chat]) == Some(o.result.value.resolved))
  {
  }

  /** A stored name outside the dispatch table is an error; no call is made and nothing is written. */
  lemma UnknownStateIsError(db: Store, chat: ChatId, input: Input, env: Env)
    requires !IsShortcut(UserReply(input))
    requires chat in db && Lookup(db[chat]).None?
    ensures HandleUsersReply(db, Delivered(chat, input), env) == Outcome(db, [], Err(UnknownState(db[chat])))
  {
  }

  /** A chat with no stored state reaches HANDLE_MENU through `/start` when the catalog read succeeds. */
  lemma FirstContact(db: Store, chat: ChatId, input: Input, env: Env)
    requires chat !in db && !Fails(env, GetProducts(None))
    ensures UserReply(input) == "/start" ==> HandleUsersReply(db, Delivered(chat, input), env).db[chat] == "HANDLE_MENU"
  {
  }

  /** A chat with no stored state that sends anything but a reserved reply raises, whatever the backend does. */
  lemma FirstContactWithoutStart(db: Store, chat: ChatId, input: Input, env: Env)
    requires chat !in db && !IsShortcut(UserReply(input))
    ensures HandleUsersReply(db, Delivered(chat, input), env) == Outcome(db, [], Err(NoStoredState))
  {
  }

  /** Typing `/cart` runs the cart handler on a text message, which raises; nothing is written. */
  lemma TypedCartRaises(db: Store, chat: ChatId, env: Env)
    ensures HandleUsersReply(db, Delivered(chat, Typed("/cart")), env) == Outcome(db, [], Err(NotAButtonPress))
  {
  }

  /** Typing `/pay` runs the e-mail handler, which takes `/pay` itself for the e-mail to confirm. */
  lemma TypedPayIsAnEmail(db: Store, chat: ChatId, env: Env)
    ensures var o := HandleUsersReply(db, Delivered(chat, Typed("/pay")), env);
            && o.result.Ok? && o.result.value.Handled?
            && o.result.value.turn.keyboard == [["/create_customer>/pay", "/wrong_email"]]
            && o.db == db[chat := "WAITING_EMAIL"]
  {
    assert ConfirmPayload("/pay") == "/create_customer>/pay";
  }

  /**
   A failing backend operation aborts the turn at the first one that fails:
   the calls before it were sent and answered, none after it is sent, and the
   store is unchanged.
   */
  lemma BackendFailureKeepsStore(db: Store, chat: ChatId, input: Input, env: Env, s: State, plan: Plan, k: int)
    requires Resolve(UserReply(input), if chat in db then Some(db[chat]) else None) == Ok(Name(s))
    requires Dispatch(s, chat, input, env) == plan
    requires 0 <= k < |plan.calls| && Fails(env, plan.calls[k])
    requires forall j :: 0 <= j < k ==> !Fails(env, plan.calls[j])
    ensures HandleUsersReply(db, Delivered(chat, input), env) == Outcome(db, plan.calls[..k + 1], Err(BackendFailure(plan.calls[k])))
  {
    LookupName(s);
    assert Route(db, chat, input) == Ok(s);
    DeliveredTurn(db, chat, input, env, s);
    ConcludeAtFailure(db, chat, s, plan, env, k);
  }

  /** Concluding a plan whose k-th call is the first to fail sends the calls up to it and raises its failure. */
  lemma ConcludeAtFailure(db: Store, chat: ChatId, s: State, plan: Plan, env: Env, k: int)
    requires plan.ending.Ok? ==> plan.ending.value.next == NextState(s)
    requires plan.ending.Err? && plan.ending.error.BackendFailure? ==>
               plan.ending.error.call in plan.calls && Fails(env, plan.ending.error.call)
    requires 0 <= k < |plan.calls| && Fails(env, plan.calls[k])
    requires forall j :: 0 <= j < k ==> !Fails(env, plan.calls[j])
    ensures Conclude(db, chat, s, plan, env) == Outcome(db, plan.calls[..k + 1], Err(BackendFailure(plan.calls[k])))
  {
    assert FailureIndex(plan.calls, env) == k;
  }

  // ---------------------------------------------------------------------
  // Product pages

  /**
   Pressing the button of any catalog product in HANDLE_MENU reads that product
   and its image, shows its quantity choices and stores HANDLE_DESCRIPTION.
   */
  lemma ProductPressTurn(db: Store, chat: ChatId, i: int, author: string, env: Env)
    requires 0 <= i < |env.catalog|
    requires env.catalog[i].id != "" && !IsShortcut(env.catalog[i].id)
    requires forall p :: p in env.catalog && p.id == env.catalog[i].id ==> p.image.Some? && p.image.value != ""
    requires ReadsSucceed(env)
    requires chat in db && db[chat] == "HANDLE_MENU"
    ensures var id := env.catalog[i].id;
            var o := HandleUsersReply(db, Delivered(chat, Pressed(CatalogKeyboard(env.catalog)[i][0], author)), env);
            && CatalogKeyboard(env.catalog)[i] == [id]
            && o.db == db[chat := "HANDLE_DESCRIPTION"]
            && o.result == Ok(Handled(Menu, Turn(Description, ProductKeyboard(id))))
            && FindProduct(env.catalog, id).Some?
            && o.issued == [GetProducts(Some(id)), GetFiles(FindProduct(env.catalog, id).value.image)]
  {
    var id := env.catalog[i].id;
    var input := Pressed(CatalogKeyboard(env.catalog)[i][0], author);
    assert env.catalog[i] in env.catalog;
    var p := FindProduct(env.catalog, id).value;
    assert p in env.catalog;
    var calls := [GetProducts(Some(id)), GetFiles(p.image)];
    assert !Fails(env, calls[0]) && !Fails(env, calls[1]);
    assert Route(db, chat, input) == Ok(Menu);
    assert Dispatch(Menu, chat, input, env) == Plan(calls, Ok(Turn(Description, ProductKeyboard(id))));
    CompletedTurn(db, chat, input, env, Menu, Dispatch(Menu, chat, input, env));
  }

  /** A product without a main image raises after the product read; nothing is written. */
  lemma MenuWithoutImage(db: Store, chat: ChatId, p: Product, author: string, env: Env)
    requires p in env.catalog && p.image.None? && p.id != "" && !IsShortcut(p.id)
    requires forall q :: q in env.catalog && q.id == p.id ==> q == p
    requires chat in db && db[chat] == "HANDLE_MENU" && ReadsSucceed(env)
    ensures HandleUsersReply(db, Delivered(chat, Pressed(p.id, author)), env)
            == Outcome(db, [GetProducts(Some(p.id))], Err(NoMainImage(p.id)))
  {
    assert !Fails(env, GetProducts(Some(p.id)));
  }

  /**
   A product whose image id is empty makes the file read list every file,
   which cannot be read as one file; nothing is written.
   */
  lemma MenuWithEmptyImage(db: Store, chat: ChatId, p: Product, author: string, env: Env)
    requires p in env.catalog && p.image == Some("") && p.id != "" && !IsShortcut(p.id)
    requires forall q :: q in env.catalog && q.id == p.id ==> q == p
    requires chat in db && db[chat] == "HANDLE_MENU" && ReadsSucceed(env)
    ensures HandleUsersReply(db, Delivered(chat, Pressed(p.id, author)), env)
            == Outcome(db, [GetProducts(Some(p.id)), GetFiles(Some(""))], Err(ListingNotItem(GetFiles(Some("")))))
  {
    assert !Fails(env, GetProducts(Some(p.id)));
    assert !Fails(env, GetFiles(Some("")));
  }

  // ---------------------------------------------------------------------
  // Quantity payloads

  /** A payload holding `>` is never a reserved token. */
  lemma PayloadWithSepIsNotShortcut(payload: string)
    requires '>' in payload
    ensures !IsShortcut(payload)
  {
  }

  /** `{id}>{qty}` parses back to the same id and quantity when the id holds no `>`. */
  lemma QuantityPayloadRoundTrip(productId: string, quantity: int)
    requires '>' !in productId
    ensures ParseQuantityPayload(QuantityPayload(productId, quantity)) == Ok((productId, quantity))
  {
    var digits := IntToString(quantity);
    IntToStringAvoids(quantity, '>');
    SplitJoin([productId, digits], '>');
    assert Join([productId, digits], '>') == QuantityPayload(productId, quantity);
    ParseIntToString(quantity);
  }

  /** An id holding `>` does not survive: its second part is read as the quantity. */
  lemma QuantityPayloadIdWithSep()
    ensures ParseQuantityPayload(QuantityPayload("a>b", 5)) == Err(BadQuantity("b"))
  {
    assert QuantityPayload("a>b", 5) == Join(["a", "b", "5"], '>');
    SplitJoin(["a", "b", "5"], '>');
  }

  /**
   The product page offers one row of three quantity buttons; pressing the k-th
   in the description state adds exactly that quantity of that product, once.
   */
  lemma MenuQuantitiesRoundTrip(chat: ChatId, productId: string, author: string, author': string, env: Env, k: int)
    requires '>' !in productId
    requires MenuHandler(Pressed(productId, author), env).ending.Ok?
    requires 0 <= k < 3
    ensures var kb := MenuHandler(Pressed(productId, author), env).ending.value.keyboard;
            && |kb| == 3 && |kb[0]| == 3 && kb[1] == ["/back"] && kb[2] == ["/cart"]
            && DescriptionHandler(chat, Pressed(kb[0][k], author')) ==
               Plan([AddProductToCart(chat, productId, OfferedQuantities[k]), GetProducts(Some(productId))],
                    Ok(Turn(Description, [["/back"], ["/cart"]])))
  {
    QuantityPayloadRoundTrip(productId, OfferedQuantities[k]);
  }

  /** A whole turn on a quantity payload: one cart insertion, then the product read, state kept at HANDLE_DESCRIPTION. */
  lemma QuantityTurn(db: Store, chat: ChatId, productId: string, quantity: int, author: string, env: Env)
    requires '>' !in productId && productId != ""
    requires chat in db && db[chat] == "HANDLE_DESCRIPTION"
    requires !Fails(env, AddProductToCart(chat, productId, quantity)) && !Fails(env, GetProducts(Some(productId)))
    ensures var o := HandleUsersReply(db, Delivered(chat, Pressed(QuantityPayload(productId, quantity), author)), env);
            && o.db == db
            && o.result.Ok? && o.result.value.Handled?
            && o.issued == [AddProductToCart(chat, productId, quantity), GetProducts(Some(productId))]
  {
    var payload := QuantityPayload(productId, quantity);
    assert payload[|productId|] == '>';
    PayloadWithSepIsNotShortcut(payload);
    QuantityPress(chat, productId, quantity, author);
    var calls := [AddProductToCart(chat, productId, quantity), GetProducts(Some(productId))];
    assert forall c :: c in calls ==> !Fails(env, c);
    DescriptionTurn(db, chat, Pressed(payload, author), env, calls, Turn(Description, [["/back"], ["/cart"]]));
    assert db[chat := "HANDLE_DESCRIPTION"] == db;
  }

  /** A press in HANDLE_DESCRIPTION whose handler completes with every call answered sends them all and keeps that state. */
  lemma DescriptionTurn(db: Store, chat: ChatId, input: Input, env: Env, calls: seq<Call>, turn: Turn)
    requires !IsShortcut(UserReply(input)) && chat in db && db[chat] == "HANDLE_DESCRIPTION"
    requires DescriptionHandler(chat, input) == Plan(calls, Ok(turn))
    requires forall c :: c in calls ==> !Fails(env, c)
    ensures HandleUsersReply(db, Delivered(chat, input), env)
            == Outcome(db[chat := "HANDLE_DESCRIPTION"], calls, Ok(Handled(Description, turn)))
  {
    assert Route(db, chat, input) == Ok(Description);
    CompletedTurn(db, chat, input, env, Description, Plan(calls, Ok(turn)));
  }

  /** A quantity button adds that quantity of that product to the chat's cart and reads the product back. */
  lemma QuantityPress(chat: ChatId, productId: string, quantity: int, author: string)
    requires '>' !in productId
    ensures var read := GetProducts(Some(productId));
            DescriptionHandler(chat, Pressed(QuantityPayload(productId, quantity), author))
            == Plan([AddProductToCart(chat, productId, quantity), read],
                    if productId == "" then Err(ListingNotItem(read)) else Ok(Turn(Description, [["/back"], ["/cart"]])))
  {
    QuantityPayloadRoundTrip(productId, quantity);
  }

  /**
   When the product read after the insertion fails, the insertion has already
   been sent and answered, the turn raises, and the store is unchanged.
   */
  lemma QuantityTurnReadFails(db: Store, chat: ChatId, productId: string, quantity: int, author: string, env: Env)
    requires '>' !in productId
    requires chat in db && db[chat] == "HANDLE_DESCRIPTION"
    requires !Fails(env, AddProductToCart(chat, productId, quantity)) && Fails(env, GetProducts(Some(productId)))
    ensures HandleUsersReply(db, Delivered(chat, Pressed(QuantityPayload(productId, quantity), author)), env)
            == Outcome(db, [AddProductToCart(chat, productId, quantity), GetProducts(Some(productId))],
                       Err(BackendFailure(GetProducts(Some(productId)))))
  {
    var payload := QuantityPayload(productId, quantity);
    var input := Pressed(payload, author);
    assert payload[|productId|] == '>';
    PayloadWithSepIsNotShortcut(payload);
    QuantityPress(chat, productId, quantity, author);
    assert Route(db, chat, input) == Ok(Description);
    var calls := [AddProductToCart(chat, productId, quantity), GetProducts(Some(productId))];
    var read := GetProducts(Some(productId));
    var plan := Plan(calls, if productId == "" then Err(ListingNotItem(read)) else Ok(Turn(Description, [["/back"], ["/cart"]])));
    BackendFailureKeepsStore(db, chat, input, env, Description, plan, 1);
    assert calls[..2] == calls;
  }


  /** An empty product id (payload `>{qty}`) adds to the cart, then reads the whole listing and raises. */
  lemma QuantityTurnEmptyId(quantity: int, chat: ChatId, author: string)
    ensures DescriptionHandler(chat, Pressed(QuantityPayload("", quantity), author))
            == Plan([AddProductToCart(chat, "", quantity), GetProducts(Some(""))], Err(ListingNotItem(GetProducts(Some("")))))
  {
    QuantityPress(chat, "", quantity, author);
  }

  // ---------------------------------------------------------------------
  // Tagged payloads: `delete>{id}` and `/create_customer>{email}`

  /**
   A tagged payload yields the field after the tag's `>` wherever the tag
   stands, as long as nothing before the tag holds `>`.
   */
  lemma TaggedFieldAnywhere(before: string, tag: string, value: string)
    requires '>' !in before && '>' !in tag && '>' !in value
    ensures ParseTaggedPayload(before + tag + ">" + value, tag) == Ok(Some(value))
  {
    var head := before + tag;
    var payload := before + tag + ">" + value;
    assert payload == head + ['>'] + value;
    assert OccursAt(payload, tag, |before|) by {
      assert payload[|before|..|before| + |tag|] == tag;
    }
    ContainsAt(payload, tag);
    SplitFieldThenSep(head, value, '>');
    SplitNoSep(value, '>');
  }

  /** `delete>{id}` names the same id back when the id holds no `>`. */
  lemma DeletePayloadRoundTrip(productId: string)
    requires '>' !in productId
    ensures ParseDeletePayload(DeletePayload(productId)) == Ok(Some(productId))
  {
    TaggedFieldAnywhere("", "delete", productId);
    assert "" + "delete" + ">" + productId == DeletePayload(productId);
  }

  /**
   Each cart item's delete button, pressed in the cart, removes that item before
   both cart reads; the keyboard lists one delete button per item and ends with
   the back and pay shortcuts.
   */
  lemma CartDeleteButtons(chat: ChatId, author: string, env: Env, i: int)
    requires 0 <= i < |env.cartItems| && '>' !in env.cartItems[i]
    ensures var kb := CartKeyboard(env.cartItems);
            && kb[i] == [DeletePayload(env.cartItems[i])]
            && kb[|kb| - 1] == ["/back", "/pay"]
            && CartHandler(chat, Pressed(kb[i][0], author), env) ==
               Plan([RemoveItemFromCart(chat, env.cartItems[i]), GetCartStatus(chat, false), GetCartStatus(chat, true)],
                    Ok(Turn(Cart, kb)))
  {
    DeletePayloadRoundTrip(env.cartItems[i]);
    var item := env.cartItems[i];
    assert [RemoveItemFromCart(chat, item)] + [GetCartStatus(chat, false), GetCartStatus(chat, true)]
        == [RemoveItemFromCart(chat, item), GetCartStatus(chat, false), GetCartStatus(chat, true)];
  }

  /** Without `delete` anywhere in the payload nothing is removed; the cart is only read. */
  lemma CartWithoutDelete(chat: ChatId, payload: string, author: string, env: Env)
    requires !Contains(payload, "delete")
    ensures CartHandler(chat, Pressed(payload, author), env) ==
            Plan([GetCartStatus(chat, false), GetCartStatus(chat, true)], Ok(Turn(Cart, CartKeyboard(env.cartItems))))
  {
    var none: seq<Call> := [];
    assert none + [GetCartStatus(chat, false), GetCartStatus(chat, true)]
        == [GetCartStatus(chat, false), GetCartStatus(chat, true)];
  }

  /** Pressing the cart shortcut reads the cart and its items and stores HANDLE_CART when both reads succeed. */
  lemma CartShortcutTurn(db: Store, chat: ChatId, author: string, env: Env)
    requires !Fails(env, GetCartStatus(chat, false)) && !Fails(env, GetCartStatus(chat, true))
    ensures var o := HandleUsersReply(db, Delivered(chat, Pressed("/cart", author)), env);
            && o.db == db[chat := "HANDLE_CART"]
            && o.issued == [GetCartStatus(chat, false), GetCartStatus(chat, true)]
  {
    var input := Pressed("/cart", author);
    assert !Contains("/cart", "delete");
    CartWithoutDelete(chat, "/cart", author, env);
    assert Route(db, chat, input) == Ok(Cart);
    CompletedTurn(db, chat, input, env, Cart, Dispatch(Cart, chat, input, env));
  }

  /**
   `delete` is matched anywhere in the payload, not only at its start:
   whatever comes before it, the second `>`-field is removed.
   */
  lemma DeleteMatchedAnywhere(chat: ChatId, before: string, productId: string, author: string, env: Env)
    requires '>' !in before && '>' !in productId
    ensures CartHandler(chat, Pressed(before + DeletePayload(productId), author), env)
            == Plan([RemoveItemFromCart(chat, productId), GetCartStatus(chat, false), GetCartStatus(chat, true)],
                    Ok(Turn(Cart, CartKeyboard(env.cartItems))))
  {
    TaggedFieldAnywhere(before, "delete", productId);
    assert before + "delete" + ">" + productId == before + DeletePayload(productId);
    assert [RemoveItemFromCart(chat, productId)] + [GetCartStatus(chat, false), GetCartStatus(chat, true)]
        == [RemoveItemFromCart(chat, productId), GetCartStatus(chat, false), GetCartStatus(chat, true)];
  }

  /** A payload that mentions `delete` but has no second field raises, before any backend call. */
  lemma DeleteWithoutField(chat: ChatId, author: string, env: Env)
    ensures CartHandler(chat, Pressed("delete", author), env) == Plan([], Err(MissingField("delete")))
  {
    PrefixContains("delete", "");
    assert "delete" + "" == "delete";
    SplitNoSep("delete", '>');
  }

  // ---------------------------------------------------------------------
  // E-mail payloads

  /** `/create_customer>{text}` gives the text back when it holds no `>`. */
  lemma ConfirmPayloadRoundTrip(email: string)
    requires '>' !in email
    ensures ParseConfirmPayload(ConfirmPayload(email)) == Ok(Some(email))
  {
    TaggedFieldAnywhere("", "/create_customer", email);
    assert "" + "/create_customer" + ">" + email == ConfirmPayload(email);
  }

  /**
   A typed text is offered for confirmation; pressing the confirm button
   registers exactly that text as the e-mail, with no check of its shape.
   */
  lemma EmailConfirmation(text: string, author: string)
    requires '>' !in text
    ensures var kb := EmailHandler(Typed(text)).ending.value.keyboard;
            && kb == [[ConfirmPayload(text), "/wrong_email"]]
            && EmailHandler(Pressed(kb[0][0], author)) == Plan([CreateCustomer(author, text)], Ok(Turn(WaitingEmail, [])))
  {
    ConfirmPayloadRoundTrip(text);
  }

  /** A text without `@` is registered all the same. */
  lemma EmailNotValidated(author: string)
    ensures EmailHandler(Pressed(ConfirmPayload("no-at-sign"), author))
            == Plan([CreateCustomer(author, "no-at-sign")], Ok(Turn(WaitingEmail, [])))
  {
    ConfirmPayloadRoundTrip("no-at-sign");
  }

  /** A text holding `>` is cut at its first `>`. */
  lemma EmailCutAtSep(before: string, after: string, author: string)
    requires '>' !in before
    ensures EmailHandler(Pressed(ConfirmPayload(before + ">" + after), author))
            == Plan([CreateCustomer(author, before)], Ok(Turn(WaitingEmail, [])))
  {
    ConfirmFieldCutAtSep(before, after);
  }

  /** The confirmation payload of an address holding `>` carries only the part before it. */
  lemma ConfirmFieldCutAtSep(before: string, after: string)
    requires '>' !in before
    ensures ParseConfirmPayload(ConfirmPayload(before + ">" + after)) == Ok(Some(before))
  {
    var payload := ConfirmPayload(before + ">" + after);
    PrefixContains("/create_customer", ">" + before + ">" + after);
    assert "/create_customer" + (">" + before + ">" + after) == payload;
    assert payload == "/create_customer" + [ '>' ] + (before + [ '>' ] + after);
    SplitFieldThenSep("/create_customer", before + [ '>' ] + after, '>');
    SplitFieldThenSep(before, after, '>');
  }

  /**
   `/create_customer` is matched anywhere in the payload, not only at its start:
   whatever comes before it, the second `>`-field is registered.
   */
  lemma ConfirmMatchedAnywhere(before: string, email: string, author: string)
    requires '>' !in before && '>' !in email
    ensures EmailHandler(Pressed(before + ConfirmPayload(email), author))
            == Plan([CreateCustomer(author, email)], Ok(Turn(WaitingEmail, [])))
  {
    TaggedFieldAnywhere(before, "/create_customer", email);
    assert before + "/create_customer" + ">" + email == before + ConfirmPayload(email);
  }

  /** Any other press, `/wrong_email` included, only repeats the prompt: no customer is created. */
  lemma OtherEmailPresses(payload: string, author: string)
    requires !Contains(payload, "/create_customer")
    ensures EmailHandler(Pressed(payload, author)) == Plan([], Ok(Turn(WaitingEmail, [])))
  {
  }

  /** `/wrong_email` is such a press. */
  lemma WrongEmailPress(author: string)
    ensures EmailHandler(Pressed(WrongEmailPayload, author)) == Plan([], Ok(Turn(WaitingEmail, [])))
  {
    ContainsAt(WrongEmailPayload, "/create_customer");
  }

  // ---------------------------------------------------------------------
  // A session

  /** The first two turns of a session: `/start`, then the i-th catalog product. */
  lemma SessionOpening(db: Store, chat: ChatId, i: int, env: Env, author: string)
    requires 0 <= i < |env.catalog|
    requires ReadsSucceed(env) && ImagesPresent(env.catalog)
    requires env.catalog[i].id != "" && !IsShortcut(env.catalog[i].id)
    ensures var o1 := HandleUsersReply(db, Delivered(chat, Typed("/start")), env);
            var o2 := HandleUsersReply(o1.db, Delivered(chat, Pressed(env.catalog[i].id, author)), env);
            && chat in o1.db && o1.db[chat] == "HANDLE_MENU"
            && chat in o2.db && o2.db[chat] == "HANDLE_DESCRIPTION"
  {
    var o1 := HandleUsersReply(db, Delivered(chat, Typed("/start")), env);
    ResetLandsInMenu(db, chat, Typed("/start"), env);
    ProductPressTurn(o1.db, chat, i, author, env);
  }

  /** The last two turns of a session, from HANDLE_DESCRIPTION: a quantity button of a catalog product, then `/cart`. */
  lemma SessionClosing(db: Store, chat: ChatId, productId: string, quantity: int, env: Env, author: string)
    requires chat in db && db[chat] == "HANDLE_DESCRIPTION"
    requires productId != "" && '>' !in productId
    requires ReadsSucceed(env) && FindProduct(env.catalog, productId).Some?
    requires !Fails(env, AddProductToCart(chat, productId, quantity))
    ensures var o3 := HandleUsersReply(db, Delivered(chat, Pressed(QuantityPayload(productId, quantity), author)), env);
            var o4 := HandleUsersReply(o3.db, Delivered(chat, Pressed("/cart", author)), env);
            && o3.db == db
            && o3.issued == [AddProductToCart(chat, productId, quantity), GetProducts(Some(productId))]
            && chat in o4.db && o4.db[chat] == "HANDLE_CART"
  {
    assert !Fails(env, GetProducts(Some(productId)));
    QuantityTurn(db, chat, productId, quantity, author, env);
    CartShortcutTurn(db, chat, author, env);
  }

  /**
   A chat sends `/start`, presses the i-th catalog product, presses one of its
   quantity buttons, then `/cart`, each turn running on the store the previous
   one left: the chat's entry goes HANDLE_MENU, HANDLE_DESCRIPTION,
   HANDLE_DESCRIPTION, HANDLE_CART, and the third turn adds that quantity of
   the product to the chat's cart and then reads the product.
   */
  lemma Session(db: Store, chat: ChatId, i: int, quantity: int, env: Env, author: string)
    requires 0 <= i < |env.catalog|
    requires ReadsSucceed(env) && ImagesPresent(env.catalog)
    requires !Fails(env, AddProductToCart(chat, env.catalog[i].id, quantity))
    requires env.catalog[i].id != "" && !IsShortcut(env.catalog[i].id) && '>' !in env.catalog[i].id
    ensures var id := env.catalog[i].id;
            var o1 := HandleUsersReply(db, Delivered(chat, Typed("/start")), env);
            var o2 := HandleUsersReply(o1.db, Delivered(chat, Pressed(id, author)), env);
            var o3 := HandleUsersReply(o2.db, Delivered(chat, Pressed(QuantityPayload(id, quantity), author)), env);
            var o4 := HandleUsersReply(o3.db, Delivered(chat, Pressed("/cart", author)), env);
            && chat in o1.db && o1.db[chat] == "HANDLE_MENU"
            && chat in o2.db && o2.db[chat] == "HANDLE_DESCRIPTION"
            && o3.db == o2.db
            && o3.issued == [AddProductToCart(chat, id, quantity), GetProducts(Some(id))]
            && chat in o4.db && o4.db[chat] == "HANDLE_CART"
  {
    var o1 := HandleUsersReply(db, Delivered(chat, Typed("/start")), env);
    var o2 := HandleUsersReply(o1.db, Delivered(chat, Pressed(env.catalog[i].id, author)), env);
    SessionOpening(db, chat, i, env, author);
    assert env.catalog[i] in env.catalog;
    SessionClosing(o2.db, chat, env.catalog[i].id, quantity, env, author);
  }
}

=== FILE: moltin.dfy ===
/**
 The commerce-backend client: the cached access token, the URLs and JSON bodies
 of each request, and the abstract backend operations the bot issues. The HTTP
 transfer itself, the response decoding and the retry decorator are not
 modelled; a request is described by its verb, URL, headers and body.
 */
module Moltin {
  import opened Wrappers
  import opened Text

  /** A cart is addressed by the chat id it belongs to, rendered with `str`. */
  type CartId = int

  // ---------------------------------------------------------------------
  // Access-token cache

  /** The module-level token and its expiry, in whole seconds. */
  datatype TokenCache = TokenCache(token: Option<string>, expires: int)

  /** The state at import time: no token, expiry 0. */
  const ColdCache: TokenCache := TokenCache(None, 0)

  /** What the token endpoint answers: `access_token` and `expires`. */
  datatype Grant = Grant(accessToken: string, expires: int)

  /** The token request failed (`raise_for_status` raised). */
  datatype FetchError = TokenRequestFailed

  /** The cache after the call, the token handed back, and whether the endpoint was asked. */
  datatype TokenAnswer = TokenAnswer(cache: TokenCache, token: Option<string>, fetched: bool)

  /**
   `get_token` at time `now`; `grant` is what the token endpoint would answer
   if it were asked, and is ignored while the cached token has not expired.
   */
  function GetToken(cache: TokenCache, now: int, grant: Result<Grant, FetchError>): (r: Result<TokenAnswer, FetchError>)
    ensures r.Ok? ==> r.value.token == r.value.cache.token
    ensures r.Ok? && !r.value.fetched ==> r.value.cache == cache
    ensures r.Ok? && r.value.fetched ==>
              grant.Ok? && r.value.cache == TokenCache(Some(grant.value.accessToken), grant.value.expires)
    ensures r.Err? || r.value.fetched <==> now > cache.expires
    ensures r.Err? ==> cache.expires < now && grant.Err?
  {
    if now <= cache.expires then
      Ok(TokenAnswer(cache, cache.token, false))
    else
      match grant
      case Err(e) => Err(e)
      case Ok(g) =>
        var renewed := TokenCache(Some(g.accessToken), g.expires);
        Ok(TokenAnswer(renewed, renewed.token, true))
  }

  /** A hit, up to and including the expiry second, neither asks the endpoint nor changes the cache. */
  lemma CacheHit(cache: TokenCache, now: int, g1: Result<Grant, FetchError>, g2: Result<Grant, FetchError>)
    requires now <= cache.expires
    ensures GetToken(cache, now, g1) == GetToken(cache, now, g2) == Ok(TokenAnswer(cache, cache.token, false))
  {
  }

  /** After the expiry second the endpoint is asked once and its answer replaces the cache. */
  lemma CacheMiss(cache: TokenCache, now: int, g: Grant)
    requires now > cache.expires
    ensures GetToken(cache, now, Ok(g)) == Ok(TokenAnswer(TokenCache(Some(g.accessToken), g.expires), Some(g.accessToken), true))
  {
  }

  /** The first call at any positive time fetches a token. */
  lemma ColdStartFetches(now: int, grant: Result<Grant, FetchError>)
    requires now > 0
    ensures GetToken(ColdCache, now, grant).Err? || GetToken(ColdCache, now, grant).value.fetched
  {
  }

  /**
   A freshly fetched token is served from the cache by every later call up to
   its expiry, whatever the endpoint would answer then.
   */
  lemma RefreshedTokenIsReused(cache: TokenCache, now: int, g: Grant, later: int, g': Result<Grant, FetchError>)
    requires now > cache.expires && later <= g.expires
    ensures GetToken(cache, now, Ok(g)).Ok?
    ensures var first := GetToken(cache, now, Ok(g)).value;
            GetToken(first.cache, later, g') == Ok(TokenAnswer(first.cache, Some(g.accessToken), false))
  {
  }

  // ---------------------------------------------------------------------
  // URLs

  /** Python truthiness of an optional id: both `None` and `""` are false. */
  predicate Truthy(id: Option<string>) {
    id.Some? && id.value != ""
  }

  /** The text an optional id contributes to a URL. */
  function IdSegment(id: Option<string>): string {
    if Truthy(id) then id.value else ""
  }

  /** `{base}/v2/{resource}/`, followed by the id only when the id is truthy. */
  function CollectionUrl(base: string, resource: string, id: Option<string>): (url: string)
    ensures |url| == |base| + |resource| + 5 + |IdSegment(id)|
  {
    var root := base + "/v2/" + resource + "/";
    if Truthy(id) then root + id.value else root
  }

  function ProductsUrl(base: string, productId: Option<string>): string {
    CollectionUrl(base, "products", productId)
  }

  function FilesUrl(base: string, fileId: Option<string>): string {
    CollectionUrl(base, "files", fileId)
  }

  function CustomersUrl(base: string, customerId: Option<string>): string {
    CollectionUrl(base, "customers", customerId)
  }

  /** `{base}/v2/carts/{cart}`, with `/items` appended when the items are asked for. */
  function CartUrl(base: string, cartId: CartId, items: bool): string {
    var url := base + "/v2/carts/" + IntToString(cartId);
    if items then url + "/items" else url
  }

  /** `{base}/v2/carts/{cart}/items/{product}`. */
  function CartItemUrl(base: string, cartId: CartId, productId: string): string {
    base + "/v2/carts/" + IntToString(cartId) + "/items/" + productId
  }

  function CreateCustomerUrl(base: string): string {
    base + "/v2/customers"
  }

  /** Where `get_token` posts the client credentials. */
  function TokenUrl(base: string): string {
    base + "/oauth/access_token"
  }

  /** An empty id builds the same URL as no id at all. */
  lemma EmptyIdIsNoId(base: string, resource: string)
    ensures CollectionUrl(base, resource, Some("")) == CollectionUrl(base, resource, None)
  {
  }

  /** Two ids build the same collection URL exactly when they contribute the same segment. */
  lemma CollectionUrlDeterminesId(base: string, resource: string, x: Option<string>, y: Option<string>)
    ensures CollectionUrl(base, resource, x) == CollectionUrl(base, resource, y) <==> IdSegment(x) == IdSegment(y)
  {
    var root := base + "/v2/" + resource + "/";
    assert CollectionUrl(base, resource, x) == root + IdSegment(x);
    assert CollectionUrl(base, resource, y) == root + IdSegment(y);
    if root + IdSegment(x) == root + IdSegment(y) {
      assert IdSegment(x) == (root + IdSegment(x))[|root|..];
      assert IdSegment(y) == (root + IdSegment(y))[|root|..];
    }
  }

  /** A cart URL ends in `/items` exactly when the items were asked for. */
  lemma CartUrlItemsSuffix(base: string, cartId: CartId, items: bool)
    ensures var url := CartUrl(base, cartId, items);
            (|url| >= 6 && url[|url| - 6..] == "/items") <==> items
  {
    var url := CartUrl(base, cartId, items);
    IntToStringEndsInDigit(cartId);
    if !items {
      var digits := IntToString(cartId);
      assert url[|url| - 1] == digits[|digits| - 1];
    } else {
      assert url[|url| - 6..] == "/items";
    }
  }

  /** The URL of one cart item extends the URL of the cart's item list by `/{product}`. */
  lemma CartItemUrlExtendsItemsUrl(base: string, cartId: CartId, productId: string)
    ensures CartItemUrl(base, cartId, productId) == CartUrl(base, cartId, true) + "/" + productId
  {
  }

  // ---------------------------------------------------------------------
  // JSON bodies

  /** The JSON values the request bodies are made of; object members keep their order. */
  datatype Json = JString(str: string) | JInt(num: int) | JObject(members: seq<(string, Json)>)

  /** The value of the first member named `key`, if any. */
  function Field(members: seq<(string, Json)>, key: string): Option<Json>
    decreases |members|
  {
    if |members| == 0 then None
    else if members[0].0 == key then Some(members[0].1)
    else Field(members[1..], key)
  }

  /** `j["data"][key]`. */
  function DataField(j: Json, key: string): Option<Json> {
    if j.JObject? then
      match Field(j.members, "data")
      case Some(JObject(inner)) => Field(inner, key)
      case _ => None
    else None
  }

  /** The body of a cart-item insertion. */
  function CartItemBody(productId: string, quantity: int): Json {
    JObject([("data", JObject([
      ("id", JString(productId)),
      ("type", JString("cart_item")),
      ("quantity", JInt(quantity))]))])
  }

  /** The body of a customer creation. */
  function CustomerBody(name: string, email: string): Json {
    JObject([("data", JObject([
      ("type", JString("customer")),
      ("name", JString(name)),
      ("email", JString(email))]))])
  }

  /** How the backend reads a cart-item body: a `cart_item` with a string id and an integer quantity. */
  function ReadCartItem(j: Json): Option<(string, int)> {
    match (DataField(j, "type"), DataField(j, "id"), DataField(j, "quantity"))
    case (Some(JString("cart_item")), Some(JString(id)), Some(JInt(q))) => Some((id, q))
    case _ => None
  }

  /** How the backend reads a customer body: a `customer` with a string name and e-mail. */
  function ReadCustomer(j: Json): Option<(string, string)> {
    match (DataField(j, "type"), DataField(j, "name"), DataField(j, "email"))
    case (Some(JString("customer")), Some(JString(n)), Some(JString(e))) => Some((n, e))
    case _ => None
  }

  /** The cart-item body carries the product id and quantity through unchanged. */
  lemma CartItemBodyRoundTrip(productId: string, quantity: int)
    ensures ReadCartItem(CartItemBody(productId, quantity)) == Some((productId, quantity))
  {
    var inner := CartItemBody(productId, quantity).members[0].1.members;
    assert Field(inner, "id") == Some(JString(productId));
    assert Field(inner[1..], "type") == Some(JString("cart_item"));
    assert Field(inner[2..], "quantity") == Some(JInt(quantity));
    assert inner[1..][1..] == inner[2..];
    assert Field(inner, "type") == Field(inner[1..], "type");
    assert Field(inner, "quantity") == Field(inner[1..], "quantity") == Field(inner[2..], "quantity");
  }

  /** The customer body carries the name and e-mail through unchanged, whatever their text. */
  lemma CustomerBodyRoundTrip(name: string, email: string)
    ensures ReadCustomer(CustomerBody(name, email)) == Some((name, email))
  {
    var inner := CustomerBody(name, email).members[0].1.members;
    assert Field(inner, "type") == Some(JString("customer"));
    assert Field(inner[1..], "name") == Some(JString(name));
    assert Field(inner[2..], "email") == Some(JString(email));
    assert inner[1..][1..] == inner[2..];
    assert Field(inner, "name") == Field(inner[1..], "name");
    assert Field(inner, "email") == Field(inner[1..], "email") == Field(inner[2..], "email");
  }

  // ---------------------------------------------------------------------
  // Backend operations as requests

  /** The backend operations the bot uses, with the arguments it passes. */
  datatype Call =
    | GetProducts(wanted: Option<string>)
    | GetFiles(fileId: Option<string>)
    | GetCustomers(customerId: Option<string>)
    | GetCartStatus(cartId: CartId, items: bool)
    | AddProductToCart(cartId: CartId, productId: string, quantity: int)
    | RemoveItemFromCart(cartId: CartId, productId: string)
    | CreateCustomer(name: string, email: string)

  /** Reading operations; the others change backend data. */
  predicate IsRead(call: Call) {
    call.GetProducts? || call.GetFiles? || call.GetCustomers? || call.GetCartStatus?
  }

  datatype Verb = Get | Post | Delete

  datatype HttpRequest = HttpRequest(verb: Verb, url: string, headers: seq<(string, string)>, body: Option<Json>)

  /** The text an f-string makes of the cached token: Python prints a missing one as `None`. */
  function TokenText(token: Option<string>): string {
    match token
    case None => "None"
    case Some(t) => t
  }

  /** The request an operation sends, given the base URL and the token `get_token` returned. */
  function RequestFor(base: string, token: Option<string>, call: Call): (req: HttpRequest)
    ensures req.verb == Get <==> IsRead(call)
    ensures req.body.Some? <==> req.verb == Post
    ensures |req.headers| >= 1 && req.headers[0] == ("Authorization", "Bearer " + TokenText(token))
  {
    var auth := ("Authorization", "Bearer " + TokenText(token));
    var json := ("Content-Type", "application/json");
    match call
    case GetProducts(id) => HttpRequest(Get, ProductsUrl(base, id), [auth], None)
    case GetFiles(id) => HttpRequest(Get, FilesUrl(base, id), [auth], None)
    case GetCustomers(id) => HttpRequest(Get, CustomersUrl(base, id), [auth], None)
    case GetCartStatus(cart, items) => HttpRequest(Get, CartUrl(base, cart, items), [auth], None)
    case AddProductToCart(cart, id, q) =>
      HttpRequest(Post, CartUrl(base, cart, true), [auth, json], Some(CartItemBody(id, q)))
    case RemoveItemFromCart(cart, id) => HttpRequest(Delete, CartItemUrl(base, cart, id), [auth], None)
    case CreateCustomer(name, email) =>
      HttpRequest(Post, CreateCustomerUrl(base), [auth, json], Some(CustomerBody(name, email)))
  }

  /** Every writing request carries its arguments to the backend unchanged. */
  lemma WritesCarryArguments(base: string, token: Option<string>, call: Call)
    requires !IsRead(call)
    ensures var req := RequestFor(base, token, call);
            match call
            case AddProductToCart(cart, id, q) =>
              req.url == CartUrl(base, cart, true) && ReadCartItem(req.body.value) == Some((id, q))
            case RemoveItemFromCart(cart, id) =>
              req.url == CartUrl(base, cart, true) + "/" + id && req.body.None?
            case CreateCustomer(name, email) =>
              req.url == CreateCustomerUrl(base) && ReadCustomer(req.body.value) == Some((name, email))
            case _ => false
  {
    match call
    case AddProductToCart(cart, id, q) => CartItemBodyRoundTrip(id, q);
    case CreateCustomer(name, email) => CustomerBodyRoundTrip(name, email);
    case _ =>
  }

  // ---------------------------------------------------------------------
  // The token request

  /** The client id and secret the bot is configured with. */
  datatype Credentials = Credentials(clientId: string, clientSecret: string)

  /**
   What `get_token` sends on a miss: a form post of the client credentials
   with grant type `client_credentials`, and no bearer header, since this is
   the request that obtains the token.
   */
  function TokenRequest(base: string, creds: Credentials): (req: HttpRequest)
    ensures req.verb == Post && req.url == TokenUrl(base)
    ensures forall h :: h in req.headers ==> h.0 != "Authorization"
    ensures req.body.Some? && req.body.value.JObject?
  {
    HttpRequest(Post, TokenUrl(base), [], Some(JObject([
      ("client_id", JString(creds.clientId)),
      ("grant_type", JString("client_credentials")),
      ("client_secret", JString(creds.clientSecret))])))
  }

  /** How the token endpoint reads the form: the client-credentials grant and both credentials as text. */
  function ReadCredentials(j: Json): Option<Credentials> {
    if !j.JObject? then None
    else
      match (Field(j.members, "grant_type"), Field(j.members, "client_id"), Field(j.members, "client_secret"))
      case (Some(JString("client_credentials")), Some(JString(id)), Some(JString(secret))) => Some(Credentials(id, secret))
      case _ => None
  }

  /** The token request carries the configured credentials through unchanged and asks for the client-credentials grant. */
  lemma TokenRequestRoundTrip(base: string, creds: Credentials)
    ensures ReadCredentials(TokenRequest(base, creds).body.value) == Some(creds)
  {
    var form := TokenRequest(base, creds).body.value.members;
    assert Field(form, "client_id") == Some(JString(creds.clientId));
    assert Field(form[1..], "grant_type") == Some(JString("client_credentials"));
    assert Field(form[2..], "client_secret") == Some(JString(creds.clientSecret));
    assert form[1..][1..] == form[2..];
    assert Field(form, "grant_type") == Field(form[1..], "grant_type");
    assert Field(form, "client_secret") == Field(form[1..], "client_secret") == Field(form[2..], "client_secret");
  }

  /** Every backend operation is authorised with the token; the token request alone is not. */
  lemma OnlyTokenRequestIsUnauthorised(base: string, token: Option<string>, call: Call, tokenBase: string, creds: Credentials)
    ensures RequestFor(base, token, call) != TokenRequest(tokenBase, creds)
  {
  }
}

=== FILE: text.dfy ===
/**
 The handful of Python string operations the bot relies on, for one-character
 separators: `str.split`, `str.join`, the substring test `needle in hay`,
 `int(s)` and `str(n)` for integers.
 */
module Text {
  import opened Wrappers

  /** `s.split(sep)`: the maximal separator-free fields, left to right. */
  function Split(s: string, sep: char): (fields: seq<string>)
    ensures |fields| >= 1
    ensures forall i :: 0 <= i < |fields| ==> sep !in fields[i]
    decreases |s|
  {
    if |s| == 0 then [""]
    else
      var rest := Split(s[1..], sep);
      if s[0] == sep then [""] + rest
      else [[s[0]] + rest[0]] + rest[1..]
  }

  /** `sep.join(fields)`. */
  function Join(fields: seq<string>, sep: char): string
    decreases |fields|
  {
    if |fields| == 0 then ""
    else if |fields| == 1 then fields[0]
    else fields[0] + [sep] + Join(fields[1..], sep)
  }

  /** Python's `needle in hay` on strings: `needle` occurs as a contiguous block of `hay`. */
  predicate Contains(hay: string, needle: string)
    decreases |hay|
  {
    |needle| <= |hay| && (hay[..|needle|] == needle || Contains(hay[1..], needle))
  }

  predicate IsDigit(c: char) {
    '0' <= c <= '9'
  }

  predicate AllDigits(s: string) {
    forall i :: 0 <= i < |s| ==> IsDigit(s[i])
  }

  function DigitValue(c: char): nat
    requires IsDigit(c)
  {
    (c as int) - ('0' as int)
  }

  function DigitChar(d: nat): char
    requires d < 10
  {
    ('0' as int + d) as char
  }

  /** The value of a string of decimal digits, most significant first. */
  function DigitsValue(s: string): nat
    requires AllDigits(s)
    decreases |s|
  {
    if |s| == 0 then 0 else DigitsValue(s[..|s| - 1]) * 10 + DigitValue(s[|s| - 1])
  }

  /**
   `int(s)`: an optional sign followed by at least one decimal digit; anything
   else raises `ValueError`, here `None`.
   */
  function ParseInt(s: string): Option<int> {
    if |s| >= 2 && (s[0] == '-' || s[0] == '+') && AllDigits(s[1..]) then
      var magnitude: int := DigitsValue(s[1..]);
      Some(if s[0] == '-' then -magnitude else magnitude)
    else if |s| >= 1 && AllDigits(s) then
      Some(DigitsValue(s))
    else
      None
  }

  /** `str(n)` for a natural number: its shortest decimal spelling. */
  function NatToString(n: nat): (s: string)
    ensures |s| >= 1 && AllDigits(s)
    decreases n
  {
    if n < 10 then [DigitChar(n)] else NatToString(n / 10) + [DigitChar(n % 10)]
  }

  /** `str(i)` for an integer, with a leading `-` when negative. */
  function IntToString(i: int): string {
    if i < 0 then "-" + NatToString(-i) else NatToString(i)
  }

  // ---------------------------------------------------------------------
  // split / join

  /** Splitting a separator-free prefix glues it onto the first field. */
  lemma {:induction false} SplitFreePrefix(a: string, t: string, sep: char)
    requires sep !in a
    ensures Split(a + t, sep) == [a + Split(t, sep)[0]] + Split(t, sep)[1..]
    decreases |a|
  {
    if |a| > 0 {
      assert (a + t)[1..] == a[1..] + t;
      SplitFreePrefix(a[1..], t, sep);
      assert [a[0]] + (a[1..] + Split(t, sep)[0]) == a + Split(t, sep)[0];
    } else {
      assert a + t == t;
      assert a + Split(t, sep)[0] == Split(t, sep)[0];
      assert Split(t, sep) == [Split(t, sep)[0]] + Split(t, sep)[1..];
    }
  }

  /** A separator-free field followed by the separator splits off exactly that field. */
  lemma SplitFieldThenSep(a: string, b: string, sep: char)
    requires sep !in a
    ensures Split(a + [sep] + b, sep) == [a] + Split(b, sep)
  {
    assert a + [sep] + b == a + ([sep] + b);
    SplitFreePrefix(a, [sep] + b, sep);
    assert ([sep] + b)[1..] == b;
    assert a + "" == a;
  }

  /** A separator-free string is a single field. */
  lemma SplitNoSep(a: string, sep: char)
    requires sep !in a
    ensures Split(a, sep) == [a]
  {
    assert a + "" == a;
    SplitFreePrefix(a, "", sep);
  }

  /** Joining the fields of a split gives back the original string. */
  lemma {:induction false} JoinSplit(s: string, sep: char)
    ensures Join(Split(s, sep), sep) == s
    decreases |s|
  {
    if |s| > 0 {
      var rest := Split(s[1..], sep);
      JoinSplit(s[1..], sep);
      if s[0] == sep {
        assert ([""] + rest)[1..] == rest;
        if |rest| == 1 {
          assert Join([""] + rest, sep) == "" + [sep] + rest[0];
        }
        assert s == [s[0]] + s[1..];
      } else {
        var f := [[s[0]] + rest[0]] + rest[1..];
        assert f[1..] == rest[1..];
        if |rest| == 1 {
          assert s == [s[0]] + s[1..];
        } else {
          assert Join(rest, sep) == rest[0] + [sep] + Join(rest[1..], sep);
          assert s == [s[0]] + s[1..];
        }
      }
    }
  }

  /** Splitting a join of separator-free fields gives back the fields. */
  lemma {:induction false} SplitJoin(fields: seq<string>, sep: char)
    requires |fields| >= 1
    requires forall i :: 0 <= i < |fields| ==> sep !in fields[i]
    ensures Split(Join(fields, sep), sep) == fields
    decreases |fields|
  {
    if |fields| == 1 {
      SplitNoSep(fields[0], sep);
    } else {
      SplitJoin(fields[1..], sep);
      SplitFieldThenSep(fields[0], Join(fields[1..], sep), sep);
      assert fields == [fields[0]] + fields[1..];
    }
  }

  /**
   `first` and `second` are the first two fields of `s` split on `sep`, read
   off the string itself: `s` starts with `first`, a separator, then `second`,
   which runs to the end of `s` or to the next separator.
   */
  predicate FirstTwoFields(s: string, sep: char, first: string, second: string) {
    && |first| + 1 + |second| <= |s|
    && s[..|first| + 1 + |second|] == first + [sep] + second
    && sep !in first && sep !in second
    && (|first| + 1 + |second| == |s| || s[|first| + 1 + |second|] == sep)
  }

  /** `split` yields a single field exactly when the separator does not occur. */
  lemma SplitSingleField(s: string, sep: char)
    ensures |Split(s, sep)| == 1 <==> sep !in s
  {
    if sep !in s {
      SplitNoSep(s, sep);
    } else {
      JoinSplit(s, sep);
    }
  }

  /** When `split` yields two or more fields, its first two are the string's first two fields. */
  lemma SplitFirstTwoFields(s: string, sep: char)
    requires |Split(s, sep)| >= 2
    ensures FirstTwoFields(s, sep, Split(s, sep)[0], Split(s, sep)[1])
  {
    var f := Split(s, sep);
    JoinSplit(s, sep);
    assert s == f[0] + [sep] + Join(f[1..], sep);
    if |f| == 2 {
      assert Join(f[1..], sep) == f[1];
    } else {
      assert Join(f[1..], sep) == f[1] + [sep] + Join(f[2..], sep) by {
        assert f[1..][1..] == f[2..];
      }
    }
  }

  // ---------------------------------------------------------------------
  // substring test

  /** `needle` occurs in `hay` starting at index `i`. */
  predicate OccursAt(hay: string, needle: string, i: int) {
    0 <= i <= |hay| - |needle| && hay[i..i + |needle|] == needle
  }

  /** `Contains` agrees with the positional reading of Python's `in`, in both directions. */
  lemma {:induction false} ContainsAt(hay: string, needle: string)
    ensures Contains(hay, needle) <==> exists i :: OccursAt(hay, needle, i)
    decreases |hay|
  {
    if |needle| <= |hay| && hay[..|needle|] == needle {
      assert OccursAt(hay, needle, 0);
    } else if |needle| <= |hay| {
      assert |hay| > 0;
      ContainsAt(hay[1..], needle);
      if Contains(hay[1..], needle) {
        var j :| OccursAt(hay[1..], needle, j);
        assert hay[j + 1..j + 1 + |needle|] == hay[1..][j..j + |needle|];
        assert OccursAt(hay, needle, j + 1);
      }
      if exists i :: OccursAt(hay, needle, i) {
        var i :| OccursAt(hay, needle, i);
        assert i != 0;
        assert hay[1..][i - 1..i - 1 + |needle|] == hay[i..i + |needle|];
        assert OccursAt(hay[1..], needle, i - 1);
      }
    }
  }

  /** Anything that starts with `needle` contains it. */
  lemma PrefixContains(needle: string, rest: string)
    ensures Contains(needle + rest, needle)
  {
    assert (needle + rest)[..|needle|] == needle;
  }

  // ---------------------------------------------------------------------
  // int() / str()

  lemma {:induction false} DigitsValueNatToString(n: nat)
    ensures DigitsValue(NatToString(n)) == n
    decreases n
  {
    if n >= 10 {
      var s := NatToString(n / 10);
      DigitsValueNatToString(n / 10);
      var t := s + [DigitChar(n % 10)];
      assert t[..|t| - 1] == s;
    }
  }

  /** `int(str(i)) == i` for every integer. */
  lemma ParseIntToString(i: int)
    ensures ParseInt(IntToString(i)) == Some(i)
  {
    var s := IntToString(i);
    if i < 0 {
      var digits := NatToString(-i);
      assert s == "-" + digits;
      assert s[0] == '-' && s[1..] == digits;
      DigitsValueNatToString(-i);
      assert DigitsValue(s[1..]) == -i;
    } else {
      assert s == NatToString(i);
      assert IsDigit(s[0]);
      DigitsValueNatToString(i);
      assert DigitsValue(s) == i;
    }
  }

  /** The decimal spelling of an integer never holds a given non-digit other than `-`. */
  lemma IntToStringAvoids(i: int, c: char)
    requires !IsDigit(c) && c != '-'
    ensures c !in IntToString(i)
  {
    var s := IntToString(i);
    if i < 0 {
      assert s == "-" + NatToString(-i);
      assert forall k :: 1 <= k < |s| ==> s[k] == NatToString(-i)[k - 1];
    }
  }

  /** The last character of `str(i)` is a digit. */
  lemma IntToStringEndsInDigit(i: int)
    ensures |IntToString(i)| >= 1 && IsDigit(IntToString(i)[|IntToString(i)| - 1])
  {
    var n := if i < 0 then -i else i;
    var d := NatToString(n);
    assert IsDigit(d[|d| - 1]);
    if i < 0 {
      assert IntToString(i)[|IntToString(i)| - 1] == d[|d| - 1];
    }
  }
}

=== FILE: wrappers.dfy ===
/** Failure-carrying datatypes shared by the model. */
module Wrappers {

  /** A value that may be absent: Python's `None` or a present value. */
  datatype Option<+T> = None | Some(value: T)

  /** The outcome of an operation that may raise: a value or the error raised. */
  datatype Result<+T, +E> = Ok(value: T) | Err(error: E)
}
